=== FILE: README.md ===
# Mac recorder transcription engine, modelled in Dafny

The engine is the Python half of a macOS recorder. The app sends it a JSON
`transcribe` command naming a WAV file. The engine reads the file and
resamples it to 16 kHz. It then runs an `ASREngine`, which holds a Russian
and an English speech model loaded through `onnx_asr` and wrapped with the
Silero voice-activity detector. The engine answers with the recognised
segments and their joined text.

For a two-channel file the first channel is the microphone (`mic/speak`) and
the second the system speaker (`speaker/speak`). Each channel is recognised
separately, its segments are tagged with their source, and the two lists are
merged by `(start, end, source)`.

The engine also handles runtime failures:
- A model that fails to initialise because of its external weights is
  reloaded on the CPU provider.
- A model that fails during CoreML inference is reloaded on the CPU and run
  once more.
- With the language set to "auto", every loaded model is tried on the first
  five seconds, and the one that produces the most text decides the language.

The model has seven modules:

- `Wrappers` (`wrappers.dfy`) holds the `Option`, `Result` and `Outcome`
  types the other modules return.
- `Text` (`text.dfy`) covers the parts of Python's `str` the engine uses:
  `in`, `isspace`, `strip` and `<`.
- `Segments` (`segments.dfy`) holds the segment records.
- `AsrEngine` (`asr_engine.dfy`) covers:
  - the two error classifiers;
  - the loader and recogniser as oracles (`Onnx`);
  - the engine's state as a value (`EngineState`), with one step function per
    public procedure and lemmas about each;
  - the class `ASREngine`, whose fields the methods update in place.
    `LoadModel`, `Initialize`, `SetLanguage` and `Recognize` are each proved
    equal to their step function. `DetectLanguage` is proved to meet the
    declarative rule `DetectedFrom`. `RunRecognition` is proved equal to
    `RecognitionOutcome`, the normalised result of one inference.
- `Transcriber` (`transcriber.dfy`) covers resampling, source tagging, the
  stable sort, the joined text and `transcribe` itself. `TranscribeResult`
  states what `transcribe` returns.
- `Protocol` (`protocol.dfy`) and `Language` (`language.dfy`) cover the
  command, the events and the language setting.

The definitions that stand for the source's functions, and the lines they
follow:

- `AsrEngine.ShouldRetryWithCpu`, `AsrEngine.IsCoreMLRuntimeFailure`: engine.py:18-27.
- `AsrEngine.LoadAttempt`, `AsrEngine.LoadModelStep`: `_load_model`, engine.py:60-85.
- `AsrEngine.InitializeStep`: `initialize`, engine.py:46-58.
- `AsrEngine.SetLanguageStep`: `set_language`, engine.py:120-131.
- `AsrEngine.RecognizeStep`, with `AsrEngine.ResolvedLanguage`: `recognize`, engine.py:87-118.
- `AsrEngine.DetectedFrom`, `AsrEngine.DetectedLanguage`, `AsrEngine.Trials`: `_detect_language`, engine.py:133-153.
- `AsrEngine.Normalize`, `AsrEngine.RecognitionOutcome`: `_run_recognition`, engine.py:162-174.
- `Transcriber.Resample`: `_resample_to_16k`, transcriber.py:74-93.
- `Transcriber.Tagged`: `_with_source`, transcriber.py:96-100.
- `Transcriber.SortSegments`: the `sorted` call, transcriber.py:63-66.
- `Transcriber.JoinTexts`: the `" ".join`, transcriber.py:68.
- `Transcriber.TranscribeResult`: `transcribe`, transcriber.py:18-71.
- `Protocol.ParseCommand`: `parse_command`, protocol.py:22-35.
- `Protocol.Event.Type`: the `type` field of each event, protocol.py:41-67.

All paths are under `engine/src/mac_recorder_engine/` (engine.py is in `asr/`).

Python's `sorted` is a stable sort by a total order on the key tuples. Such a
sort has exactly one result, so `SortSegments` computes it by insertion sort.
`SortSorted`, `SortPermutes` and `SortStable` prove that this result is
sorted, a permutation of its input, and stable.

## Model

| member | source | states |
|---|---|---|
| Text.ContainsAt | engine/src/mac_recorder_engine/asr/engine.py:21 | Python's `sub in s` holds exactly when `sub` occurs at some index of `s` |
| Text.StripEmpty | engine/src/mac_recorder_engine/asr/engine.py:166 | `s.strip()` is empty exactly when every character of `s` is whitespace |
| Text.StripInfix | engine/src/mac_recorder_engine/asr/engine.py:171 | `s.strip()` is the infix of `s` between a blank prefix and a blank suffix |
| Text.StripIdempotent | engine/src/mac_recorder_engine/asr/engine.py:171 | stripping twice is stripping once |
| Text.StringLessIrreflexive | engine/src/mac_recorder_engine/transcriber.py:63-66 | no string is below itself under Python's `<` |
| Text.StringLessTransitive | engine/src/mac_recorder_engine/transcriber.py:63-66 | Python's `<` on strings is transitive |
| Text.StringLessTotal | engine/src/mac_recorder_engine/transcriber.py:63-66 | of two different strings one is below the other |
| AsrEngine.ShouldRetryWithCpuWhenBothOccur | engine/src/mac_recorder_engine/asr/engine.py:18-21 | a message holding both the empty-model-path text and the initializer signature, in either order, asks for the CPU retry |
| AsrEngine.NoRetryForShortMessage | engine/src/mac_recorder_engine/asr/engine.py:18-21 | a message shorter than the empty-model-path text never asks for the retry |
| AsrEngine.CoreMLFailureWhenBothOccur | engine/src/mac_recorder_engine/asr/engine.py:24-27 | a message holding both the CoreML provider name and its prediction error, in either order, is a CoreML runtime failure |
| AsrEngine.RequestedLanguage | engine/src/mac_recorder_engine/asr/engine.py:97 | `language or self._language`: a given non-empty language wins; None and "" fall back to the engine's language |
| AsrEngine.NormalizeAppend | engine/src/mac_recorder_engine/asr/engine.py:162-174 | segments are filtered one at a time, in order: normalising a concatenation concatenates the results |
| AsrEngine.NormalizeShape | engine/src/mac_recorder_engine/asr/engine.py:162-174 | every emitted segment has a non-empty stripped text, the recognition language and no source |
| AsrEngine.NormalizeOne | engine/src/mac_recorder_engine/asr/engine.py:164-173 | a blank segment is dropped; any other is emitted with its start, end and stripped text |
| AsrEngine.NormalizeEmpty | engine/src/mac_recorder_engine/asr/engine.py:162-174 | nothing is emitted exactly when every yielded text strips to nothing |
| AsrEngine.RecognitionOutcomeShape | engine/src/mac_recorder_engine/asr/engine.py:162-174 | a successful `_run_recognition` returns only stripped, non-empty texts tagged with the language |
| AsrEngine.SampleWindow | engine/src/mac_recorder_engine/asr/engine.py:135-136 | the detection window is a prefix of the audio, of `min(len(audio), 5 * sample_rate)` frames for a non-negative rate |
| AsrEngine.ConcatenateTexts | engine/src/mac_recorder_engine/asr/engine.py:143-145 | the inner detection loop concatenates the yielded texts in order |
| AsrEngine.DetectedFromUnique | engine/src/mac_recorder_engine/asr/engine.py:133-153 | at most one language is "en with no text, else the first model with the longest stripped text" |
| AsrEngine.LeadingStep | engine/src/mac_recorder_engine/asr/engine.py:146-148 | one more model replaces the running choice exactly when its text is strictly longer |
| AsrEngine.BestIndexLeads | engine/src/mac_recorder_engine/asr/engine.py:138-150 | the running choice over all models is the first of the longest, or none when no model produced text |
| AsrEngine.DetectedLanguageFits | engine/src/mac_recorder_engine/asr/engine.py:133-153 | `DetectedLanguage` is exactly the language the detection rule admits |
| AsrEngine.LoadAttemptRetry | engine/src/mac_recorder_engine/asr/engine.py:60-80 | one or two loads of the model; the second is on the CPU provider and happens exactly after an unforced initializer-error failure; the model is then CPU-only exactly when forced or retried |
| AsrEngine.ModelNames.ForLanguage | engine/src/mac_recorder_engine/asr/engine.py:155-160 | "ru" and "en" map to their configured models; any other language raises ValueError "Unknown language" |
| AsrEngine.LoadModelStepEffects | engine/src/mac_recorder_engine/asr/engine.py:60-85 | loading logs exactly the loader's calls, succeeds exactly when the loader's last answer is a model, installs that model wrapped with the current detector, or raises the loader's last error and changes no model; it keeps the language and detector, asks only for the named model and leaves other languages alone; a success appends a new language to the order and leaves a reloaded one in its place |
| AsrEngine.LoadModelStepWellFormed | engine/src/mac_recorder_engine/asr/engine.py:82-83 | after a load the dictionary's order lists each loaded language exactly once |
| AsrEngine.LoadModelStepCpuOnly | engine/src/mac_recorder_engine/asr/engine.py:62-80 | after a successful load the language is CPU-only exactly when the CPU was forced or the retry ran |
| AsrEngine.LoadModelStepProviders | engine/src/mac_recorder_engine/asr/engine.py:62-74 | without `force_cpu` the CPU provider is asked for only as the retry right after a default-provider call that failed with the initializer error; with it, exactly one call is made, on the CPU |
| AsrEngine.InitializeStepEffects | engine/src/mac_recorder_engine/asr/engine.py:46-58 | a detector failure raises before anything changes; only the models the language needs are requested; on success each needed model is exactly the loader's final answer to its default-provider load wrapped with the detector, and their names are returned, Russian first |
| AsrEngine.InitializeStepWellFormed | engine/src/mac_recorder_engine/asr/engine.py:46-58 | initialising keeps the order and the dictionary in step |
| AsrEngine.InitializeStepOrder | engine/src/mac_recorder_engine/asr/engine.py:52-57 | on success the order is the old order followed by "ru" then "en", each only if needed and not loaded before |
| AsrEngine.TieGoesToFirst | engine/src/mac_recorder_engine/asr/engine.py:141-148 | of two trials with equally long, non-empty texts, the first one's language is detected |
| AsrEngine.FreshAutoTieGoesToRussian | engine/src/mac_recorder_engine/asr/engine.py:52-56 | a new "auto" engine, once initialised, orders "ru" before "en", so a detection tie goes to "ru" |
| AsrEngine.InitializeStepProviders | engine/src/mac_recorder_engine/asr/engine.py:46-58 | models are loaded on the default providers: a CPU request is only ever the initializer-error retry, and on success each needed language is CPU-only exactly when its load made that retry |
| AsrEngine.SetLanguageStepEffects | engine/src/mac_recorder_engine/asr/engine.py:120-131 | the language is switched; a loaded model is never reloaded; only missing needed models are requested; on success every needed model is loaded, and each one newly loaded is exactly the loader's final answer to its default-provider load wrapped with the detector |
| AsrEngine.SetLanguageStepWellFormed | engine/src/mac_recorder_engine/asr/engine.py:120-131 | switching keeps the order and the dictionary in step |
| AsrEngine.SetLanguageStepOrder | engine/src/mac_recorder_engine/asr/engine.py:122-131 | on success the order is the old order followed by the missing needed languages, "ru" then "en" |
| AsrEngine.SetLanguageStepProviders | engine/src/mac_recorder_engine/asr/engine.py:122-131 | missing models are loaded on the default providers: a CPU request is only ever the initializer-error retry, and on success each language loaded is CPU-only exactly when its load made that retry |
| AsrEngine.SetLanguageTwice | engine/src/mac_recorder_engine/asr/engine.py:120-131 | once a switch succeeded, repeating it loads nothing and changes nothing |
| AsrEngine.RecognizeStepEffects | engine/src/mac_recorder_engine/asr/engine.py:87-118 | no model gives ValueError and no change; a success, a CPU-only language or a non-CoreML error returns the first run's outcome unchanged with no change to the engine; at most one reload, only after a CoreML failure of a non-CPU-only "ru"/"en", on the CPU provider; after a successful reload the single forced-CPU request is logged, the model for the language becomes the loader's answer wrapped with the detector, and the result is that model's run; a language without a configured model raises ValueError "Unknown language: …" with no change; after a failed reload exactly the error of the loader's last answer to the forced-CPU load; the language and order are kept; results are stripped, non-empty and tagged |
| AsrEngine.RecognizeStepWellFormed | engine/src/mac_recorder_engine/asr/engine.py:87-118 | recognising, reload included, keeps the order and the dictionary in step |
| AsrEngine.ASREngine.constructor | engine/src/mac_recorder_engine/asr/engine.py:33-44 | a new engine has the given names and language, no detector, no models and no CPU-only languages |
| AsrEngine.ASREngine.LoadModel | engine/src/mac_recorder_engine/asr/engine.py:60-85 | `_load_model` leaves exactly the outcome and state `LoadModelStep` gives |
| AsrEngine.ASREngine.Initialize | engine/src/mac_recorder_engine/asr/engine.py:46-58 | `initialize` leaves exactly the outcome and state `InitializeStep` gives, keeping the order well formed |
| AsrEngine.ASREngine.SetLanguage | engine/src/mac_recorder_engine/asr/engine.py:120-131 | `set_language` leaves exactly the outcome and state `SetLanguageStep` gives |
| AsrEngine.ASREngine.DetectLanguage | engine/src/mac_recorder_engine/asr/engine.py:133-153 | the loop returns the detection rule's language over the models in dictionary order on the five-second window |
| AsrEngine.ASREngine.RunRecognition | engine/src/mac_recorder_engine/asr/engine.py:162-174 | the loop returns the normalised segments of one inference, or raises its error |
| AsrEngine.ASREngine.Recognize | engine/src/mac_recorder_engine/asr/engine.py:87-118 | the language is the requested one, or the detected one for "auto"; the outcome and new state are `RecognizeStep`'s |
| Transcriber.Resample | engine/src/mac_recorder_engine/transcriber.py:74-93 | 16 kHz audio is returned unchanged; otherwise the rate becomes 16000 and mono stays mono with as many channels; a zero rate and a stack of no channels raise |
| Transcriber.Interpolated | engine/src/mac_recorder_engine/transcriber.py:87-91 | every channel is interpolated on its own, in order |
| Transcriber.Tagged | engine/src/mac_recorder_engine/transcriber.py:96-100 | every segment is copied unchanged except that its source is set |
| Transcriber.WithSource | engine/src/mac_recorder_engine/transcriber.py:96-100 | the loop builds exactly `Tagged` |
| Transcriber.KeyLessIrreflexive | engine/src/mac_recorder_engine/transcriber.py:63-66 | no key tuple is below itself |
| Transcriber.KeyLessTransitive | engine/src/mac_recorder_engine/transcriber.py:63-66 | tuple order is transitive |
| Transcriber.KeyLessTotal | engine/src/mac_recorder_engine/transcriber.py:63-66 | of two different key tuples one is below the other |
| Transcriber.InsertionPoint | engine/src/mac_recorder_engine/transcriber.py:63-66 | a stable insertion point: everything after it has a greater key, the segment before it does not |
| Transcriber.InsertSorted | engine/src/mac_recorder_engine/transcriber.py:63-66 | inserting into a sorted list keeps it sorted |
| Transcriber.InsertPermutes | engine/src/mac_recorder_engine/transcriber.py:63-66 | insertion adds exactly the inserted segment |
| Transcriber.InsertStable | engine/src/mac_recorder_engine/transcriber.py:63-66 | the inserted segment goes behind every segment with the same key |
| Transcriber.SortSorted | engine/src/mac_recorder_engine/transcriber.py:63-66 | the sorted list is ordered by `(start, end, source)` |
| Transcriber.SortPermutes | engine/src/mac_recorder_engine/transcriber.py:63-66 | the sorted list is a permutation of its input |
| Transcriber.SortStable | engine/src/mac_recorder_engine/transcriber.py:63-66 | segments with equal keys keep their input order |
| Transcriber.MicBeforeSpeaker | engine/src/mac_recorder_engine/transcriber.py:63-66 | at equal start and end, the microphone's segment precedes the speaker's |
| Transcriber.JoinAppend | engine/src/mac_recorder_engine/transcriber.py:68 | joining two non-empty lists puts a single space between their joins |
| Transcriber.JoinContains | engine/src/mac_recorder_engine/transcriber.py:68 | every segment's text occurs in the joined text |
| Transcriber.JoinClean | engine/src/mac_recorder_engine/transcriber.py:68 | joining stripped non-empty texts gives a stripped text, empty exactly when there are no segments |
| Transcriber.RecognitionClean | engine/src/mac_recorder_engine/transcriber.py:51-62 | each recognition pass yields stripped, non-empty texts without a source |
| Transcriber.MergeClean | engine/src/mac_recorder_engine/transcriber.py:59-66 | the merged list is a permutation of the mic segments tagged "mic/speak" followed by the speaker segments tagged "speaker/speak", sorted, stable on equal keys and clean |
| Transcriber.Initialized | engine/src/mac_recorder_engine/transcriber.py:44-49 | a fresh engine after `initialize()` keeps the requested language and its order and dictionary in step |
| Transcriber.Recognition | engine/src/mac_recorder_engine/transcriber.py:52 | one `engine.recognize` pass keeps the engine's language and its order and dictionary in step |
| Transcriber.RecognizeOnce | engine/src/mac_recorder_engine/transcriber.py:52 | `engine.recognize(audio, sample_rate)` runs the engine's own language, detected for "auto" |
| Transcriber.Transcribe | engine/src/mac_recorder_engine/transcriber.py:18-71 | `transcribe` resamples, initialises a fresh engine, recognises one or two channels, and returns what `TranscribeResult` says, raising the first error met |
| Transcriber.TranscribeText | engine/src/mac_recorder_engine/transcriber.py:63-68 | the full text is the texts joined by single spaces: stripped, empty exactly without segments, and holding every segment's text |
| Transcriber.TranscribeOneChannel | engine/src/mac_recorder_engine/transcriber.py:42-54 | mono or single-column audio yields exactly the segments of the one recognition pass on the initialised engine, without a source; an initialisation or recognition error is raised as it is |
| Transcriber.TranscribeTwoChannels | engine/src/mac_recorder_engine/transcriber.py:42-66 | audio with two or more columns yields a permutation of channel 0's segments tagged mic and channel 1's tagged speaker, the second pass on the engine the first left, sorted by `(start, end, source)` and stable; an error of the initialisation or of either pass is raised as it is |
| Transcriber.TranscribeFirstTwoChannels | engine/src/mac_recorder_engine/transcriber.py:56-60 | columns beyond the second do not change the result |
| Transcriber.TranscribeOneColumn | engine/src/mac_recorder_engine/transcriber.py:53-54 | a single column is transcribed exactly as mono audio |
| Protocol.ParseCommand | engine/src/mac_recorder_engine/protocol.py:22-35 | succeeds exactly for type "transcribe", taking each field from the object or its default; otherwise raises "Unknown command type: ..." with the type, or None |
| Protocol.CommandFields | engine/src/mac_recorder_engine/protocol.py:13-19 | a command written out with `asdict`, which the engine itself never does, has exactly its five keys; it is the inverse `ParseCommandFields` pairs parsing with |
| Protocol.ParseCommandFields | engine/src/mac_recorder_engine/protocol.py:13-35 | parsing a written-out transcribe command gives it back |
| Protocol.ParseCommandIgnoresOtherKeys | engine/src/mac_recorder_engine/protocol.py:22-35 | keys other than the five command keys do not affect parsing |
| Protocol.EventFields | engine/src/mac_recorder_engine/protocol.py:41-64 | each event's dictionary holds exactly its fields plus its fixed type tag |
| Protocol.TypeIdentifiesEvent | engine/src/mac_recorder_engine/protocol.py:41-67 | the four type tags differ, so the tag identifies the event kind |
| Language.LanguageState.EffectiveLanguage | engine/src/mac_recorder_engine/asr/language.py:14-18 | None exactly for "auto"; any other setting is passed on unchanged |
| Language.DefaultState | engine/src/mac_recorder_engine/asr/language.py:8-12 | a fresh state is "auto" and asks for detection |

## Left out

- The Swift app and the process around the engine (`main.py`, `send_event`, JSON text encoding and decoding) are not part of this model. A command is modelled as already decoded into string-valued keys.
- `sf.read` is left out. `transcribe` receives the samples and the rate as values (`Audio`, `sampleRate`), and the file path is not modelled.
- Logging is left out, including the warning for more than two channels. It has no effect on results.
- `onnx_asr` is modelled as oracles: `load_vad`, `load_model` and `Model.recognize`. Recognition is a deterministic function of the model, samples and rate.
- `model.with_vad(self._vad)` is modelled as the pairing `WithVad(handle, vad)`, which never fails. A raise from `with_vad` is not modelled. In the source it would propagate after `_cpu_only_languages` had already been updated, with `_models` left as it was.
- A recognition generator that fails part-way is modelled as failing outright, so the segments it yielded before failing are not modelled.
- `hasattr`/`getattr` defaults on library segments (`str(seg)`, 0.0) are treated as already applied in `RawSegment`.
- `np.interp`/`np.linspace` resampling arithmetic is an oracle (`Interpolator`). Errors numpy itself raises for empty audio or a negative rate, and the float32 cast, are not modelled.
- Floating-point values are modelled as `real`. NaN start or end times, and their effect on sorting, are not modelled.
- `AsrEngine.ASREngine.LoadModel`: states no `Valid()` of its own. Well-formedness after a load is proved on its step function by `LoadModelStepWellFormed`, and the public methods that call it keep `Valid()`.
- `Transcriber.Transcribe`: builds its engine with an `Onnx` oracle passed in, rather than reaching the global `onnx_asr` module.

=== FILE: asr_engine.dfy ===
/** The recognition engine: which models it loads for which language, the
    fallbacks to the CPU execution provider, language auto-detection, and the
    filtering and normalisation of recognised segments.

    The recognition library is foreign code; the engine sees it only through
    the answers collected in `Onnx`. */
module AsrEngine {
  import opened Wrappers
  import opened Text
  import opened Segments

  // ---------------------------------------------------------------------
  // Error classification
  // ---------------------------------------------------------------------

  const ModelPathEmpty := "model_path must not be empty"
  const InitializerSignature := "Initializer::Initializer"
  const CoreMLProvider := "CoreMLExecutionProvider"
  const CoreMLRuntimeError := "Unable to compute the prediction using a neural network model"

  /** A load failure that loading on the CPU provider alone may cure: the
      runtime could not initialise a model whose weights live in external
      data files. */
  predicate ShouldRetryWithCpu(message: string) {
    Contains(message, ModelPathEmpty) && Contains(message, InitializerSignature)
  }

  /** An inference failure of the CoreML execution provider. */
  predicate IsCoreMLRuntimeFailure(message: string) {
    Contains(message, CoreMLProvider) && Contains(message, CoreMLRuntimeError)
  }

  /** Any message that carries both the initializer signature and the
      empty-model-path text, in either order, asks for the CPU retry. */
  lemma ShouldRetryWithCpuWhenBothOccur(a: string, b: string, c: string)
    ensures ShouldRetryWithCpu(a + InitializerSignature + b + ModelPathEmpty + c)
    ensures ShouldRetryWithCpu(a + ModelPathEmpty + b + InitializerSignature + c)
  {
    ContainsBoth(a, InitializerSignature, b, ModelPathEmpty, c);
    ContainsBoth(a, ModelPathEmpty, b, InitializerSignature, c);
  }

  /** Any message that carries both the CoreML provider name and its
      prediction-failure text, in either order, is a CoreML runtime failure. */
  lemma CoreMLFailureWhenBothOccur(a: string, b: string, c: string)
    ensures IsCoreMLRuntimeFailure(a + CoreMLProvider + b + CoreMLRuntimeError + c)
    ensures IsCoreMLRuntimeFailure(a + CoreMLRuntimeError + b + CoreMLProvider + c)
  {
    ContainsBoth(a, CoreMLProvider, b, CoreMLRuntimeError, c);
    ContainsBoth(a, CoreMLRuntimeError, b, CoreMLProvider, c);
  }

  /** A message shorter than the empty-model-path text never asks for the
      CPU retry (as with "unexpected failure"). */
  lemma NoRetryForShortMessage(message: string)
    requires |message| < |ModelPathEmpty|
    ensures !ShouldRetryWithCpu(message)
  {
    ContainsShorter(message, ModelPathEmpty);
  }

  // ---------------------------------------------------------------------
  // The recognition library, as oracles
  // ---------------------------------------------------------------------

  /** `providers=["CPUExecutionProvider"]`, or the library's default list. */
  datatype Provider = DefaultProviders | CpuExecutionProvider

  /** The arguments of one `load_model` call. */
  datatype LoadRequest = LoadRequest(modelName: string, provider: Provider)

  /** A loaded model (an opaque handle), or the exception's message. */
  datatype LoadAnswer = Loaded(handle: nat) | LoadFailed(message: string)

  /** A loaded model wrapped with the voice-activity detector the engine
      held when it was loaded (None before `Initialize`). */
  datatype Model = WithVad(handle: nat, vad: Option<nat>)

  /** What `model.recognize(audio, sample_rate=...)` yields, or the
      exception's message. */
  datatype Inference = Recognized(segments: seq<RawSegment>) | InferenceFailed(message: string)

  /** The answers of the library. `loadModel` is also given the number of
      `load_model` calls made before, so that any sequence of answers can be
      modelled; a model answers the same audio the same way. */
  datatype Onnx = Onnx(
    vad: LoadAnswer,
    loadModel: (LoadRequest, nat) -> LoadAnswer,
    recognize: (Model, Samples, int) -> Inference)

  /** The exceptions the engine raises: its own ValueError, or one of the
      library's, passed on unchanged. */
  datatype Error = ValueError(message: string) | OnnxError(message: string)

  const DefaultRussianModel := "gigaam-v3-rnnt"
  const DefaultEnglishModel := "whisper-base"
  const AutoLanguage := "auto"
  const Russian := "ru"
  const English := "en"

  /** The three language settings are different strings. */
  lemma LanguagesDistinct()
    ensures Russian != English && Russian != AutoLanguage && English != AutoLanguage
  {
    assert Russian[0] != English[0];
    assert |Russian| != |AutoLanguage|;
  }

  /** The models a language setting needs: the Russian one for "ru" and
      "auto", the English one for "en" and "auto", and no other. */
  predicate Needs(language: string, lang: string) {
    || (lang == Russian && (language == Russian || language == AutoLanguage))
    || (lang == English && (language == English || language == AutoLanguage))
  }

  /** `language or self._language`: an explicit, non-empty language wins. */
  function RequestedLanguage(requested: Option<string>, current: string): (lang: string)
    ensures requested.Some? && requested.value != "" ==> lang == requested.value
    ensures requested.None? || requested.value == "" ==> lang == current
  {
    if requested.Some? && requested.value != "" then requested.value else current
  }

  // ---------------------------------------------------------------------
  // Segment filtering and normalisation
  // ---------------------------------------------------------------------

  /** The segments `_run_recognition` emits for what a model yielded:
      blank texts dropped, the others stripped and tagged with `lang`. */
  function Normalize(raw: seq<RawSegment>, lang: string): (segments: seq<Segment>)
    ensures |segments| <= |raw|
  {
    if raw == [] then []
    else
      var text := Strip(raw[0].text);
      var rest := Normalize(raw[1..], lang);
      if text == [] then rest
      else [Segment(raw[0].start, raw[0].end, text, lang, None)] + rest
  }

  /** Normalisation works segment by segment, in order: that of a
      concatenation is the concatenation of theirs. */
  lemma {:induction false} NormalizeAppend(a: seq<RawSegment>, b: seq<RawSegment>, lang: string)
    ensures Normalize(a + b, lang) == Normalize(a, lang) + Normalize(b, lang)
  {
    if a == [] {
      assert a + b == b;
    } else {
      assert (a + b)[0] == a[0];
      assert (a + b)[1..] == a[1..] + b;
      NormalizeAppend(a[1..], b, lang);
    }
  }

  /** Every emitted segment has a non-empty text with no whitespace at
      either end, carries the language it was recognised in, and no source. */
  lemma {:induction false} NormalizeShape(raw: seq<RawSegment>, lang: string)
    ensures forall s :: s in Normalize(raw, lang) ==>
      s.text != [] && IsStripped(s.text) && s.language == lang && s.source == None
  {
    if raw != [] {
      NormalizeShape(raw[1..], lang);
    }
  }

  /** Normalising one more segment appends its normalised form, if any. */
  lemma NormalizeSnoc(raw: seq<RawSegment>, i: nat, lang: string)
    requires i < |raw|
    ensures Normalize(raw[..i + 1], lang) == Normalize(raw[..i], lang) +
      (if Strip(raw[i].text) == [] then [] else [Segment(raw[i].start, raw[i].end, Strip(raw[i].text), lang, None)])
  {
    var x := raw[i];
    assert raw[..i + 1] == raw[..i] + [x];
    NormalizeAppend(raw[..i], [x], lang);
    assert [x][1..] == [];
    assert Normalize([x], lang) ==
      (if Strip(x.text) == [] then [] else [Segment(x.start, x.end, Strip(x.text), lang, None)]);
  }

  /** One segment is kept, stripped, exactly when its text is not blank. */
  lemma NormalizeOne(seg: RawSegment, lang: string)
    ensures IsBlank(seg.text) ==> Normalize([seg], lang) == []
    ensures !IsBlank(seg.text) ==>
      Normalize([seg], lang) == [Segment(seg.start, seg.end, Strip(seg.text), lang, None)]
  {
    assert [seg][1..] == [];
    StripEmpty(seg.text);
  }

  /** Nothing is emitted exactly when every yielded text strips to nothing,
      that is (by `StripEmpty`) when every yielded text is blank. */
  lemma {:induction false} NormalizeEmpty(raw: seq<RawSegment>, lang: string)
    ensures Normalize(raw, lang) == [] <==> forall i :: 0 <= i < |raw| ==> Strip(raw[i].text) == []
  {
    if raw != [] {
      NormalizeEmpty(raw[1..], lang);
      assert forall i :: 1 <= i < |raw| ==> raw[i] == raw[1..][i - 1];
    }
  }

  /** What `_run_recognition` returns for one inference. */
  function RecognitionOutcome(inference: Inference, lang: string): Result<seq<Segment>, Error> {
    match inference
    case Recognized(raw) => Success(Normalize(raw, lang))
    case InferenceFailed(message) => Failure(OnnxError(message))
  }

  /** A successful recognition returns only stripped, non-empty texts
      tagged with the language and no source. */
  lemma RecognitionOutcomeShape(inference: Inference, lang: string)
    ensures var r := RecognitionOutcome(inference, lang);
      r.Success? ==> forall s :: s in r.value ==>
        s.language == lang && s.source == None && s.text != [] && IsStripped(s.text)
  {
    if inference.Recognized? {
      NormalizeShape(inference.segments, lang);
    }
  }

  // ---------------------------------------------------------------------
  // Language detection
  // ---------------------------------------------------------------------

  /** `audio[:min(len(audio), sample_rate * 5)]`, Python slicing included
      (a negative bound counts from the end). */
  function SampleWindow(audio: Samples, sampleRate: int): (window: Samples)
    ensures |window| <= |audio| && window == audio[..|window|]
    ensures sampleRate >= 0 ==> |window| == if |audio| <= 5 * sampleRate then |audio| else 5 * sampleRate
  {
    var frames := if |audio| <= sampleRate * 5 then |audio| else sampleRate * 5;
    if frames >= 0 then audio[..frames]
    else if -frames >= |audio| then []
    else audio[..|audio| + frames]
  }

  /** The texts of the yielded segments, concatenated in order. */
  function ConcatTexts(segments: seq<RawSegment>): string {
    if segments == [] then ""
    else ConcatTexts(segments[..|segments| - 1]) + segments[|segments| - 1].text
  }

  /** The detection loop's inner accumulation: `text += seg.text` over the
      yielded segments. */
  method ConcatenateTexts(segments: seq<RawSegment>) returns (text: string)
    ensures text == ConcatTexts(segments)
  {
    text := "";
    for j := 0 to |segments|
      invariant text == ConcatTexts(segments[..j])
    {
      assert segments[..j + 1][..j] == segments[..j];
      text := text + segments[j].text;
    }
    assert segments[..|segments|] == segments;
  }

  /** One model tried on the detection window. */
  datatype Trial = Trial(lang: string, inference: Inference)

  /** The length of the stripped text a trial produced; 0 for one that raised. */
  function Score(t: Trial): nat {
    match t.inference
    case Recognized(segments) => |Strip(ConcatTexts(segments))|
    case InferenceFailed(_) => 0
  }

  /** The score of every trial, in order. */
  function Scores(trials: seq<Trial>): (scores: seq<nat>)
    ensures |scores| == |trials|
    ensures forall i {:trigger Score(trials[i])} :: 0 <= i < |trials| ==> scores[i] == Score(trials[i])
  {
    if trials == [] then [] else Scores(trials[..|trials| - 1]) + [Score(trials[|trials| - 1])]
  }

  /** No trial produced any non-blank text. */
  predicate NoneSpeaks(scores: seq<nat>) {
    forall i :: 0 <= i < |scores| ==> scores[i] == 0
  }

  /** Trial `k` produced text, as long as any other and strictly longer
      than every earlier one. */
  predicate FirstLongest(scores: seq<nat>, k: int) {
    && 0 <= k < |scores|
    && scores[k] > 0
    && (forall j :: 0 <= j < |scores| ==> scores[j] <= scores[k])
    && (forall j :: 0 <= j < k ==> scores[j] < scores[k])
  }

  /** The language detection picks: "en" when no model produced text,
      otherwise the language of the first model with the longest text. */
  predicate DetectedFrom(trials: seq<Trial>, lang: string) {
    var scores := Scores(trials);
    && (NoneSpeaks(scores) ==> lang == English)
    && (!NoneSpeaks(scores) ==> exists k :: 0 <= k < |trials| && FirstLongest(scores, k) && lang == trials[k].lang)
  }

  /** Detection is a function of the trials: at most one language fits. */
  lemma DetectedFromUnique(trials: seq<Trial>, a: string, b: string)
    requires DetectedFrom(trials, a) && DetectedFrom(trials, b)
    ensures a == b
  {
    var scores := Scores(trials);
    if !NoneSpeaks(scores) {
      var i :| 0 <= i < |trials| && FirstLongest(scores, i) && a == trials[i].lang;
      var j :| 0 <= j < |trials| && FirstLongest(scores, j) && b == trials[j].lang;
    }
  }

  /** After the first `i` trials the running choice is `best` (-1 for none
      yet): the first of the longest among them, if any produced text. */
  predicate Leading(scores: seq<nat>, i: nat, best: int) {
    && -1 <= best < i <= |scores|
    && (best == -1 ==> forall j :: 0 <= j < i ==> scores[j] == 0)
    && (best != -1 ==> FirstLongest(scores[..i], best))
  }

  /** One more trial keeps the running choice unless it is strictly longer. */
  lemma LeadingStep(scores: seq<nat>, i: nat, best: int)
    requires Leading(scores, i, best) && i < |scores|
    ensures scores[i] > (if best == -1 then 0 else scores[best]) ==> Leading(scores, i + 1, i)
    ensures scores[i] <= (if best == -1 then 0 else scores[best]) ==> Leading(scores, i + 1, best)
  {
    assert forall j :: 0 <= j < i ==> scores[..i][j] == scores[..i + 1][j] == scores[j];
  }

  /** The index the detection loop settles on: -1 when no trial produced
      text, otherwise the first trial to reach the longest text. */
  function BestIndex(scores: seq<nat>): (best: int)
    ensures -1 <= best < |scores|
  {
    if scores == [] then -1
    else
      var best := BestIndex(scores[..|scores| - 1]);
      if scores[|scores| - 1] > (if best == -1 then 0 else scores[best]) then |scores| - 1 else best
  }

  /** Running the choice over every trial leads where `Leading` says. */
  lemma {:induction false} BestIndexLeads(scores: seq<nat>)
    ensures Leading(scores, |scores|, BestIndex(scores))
  {
    if scores != [] {
      var n := |scores| - 1;
      var prefix := scores[..n];
      BestIndexLeads(prefix);
      assert prefix[..n] == scores[..n];
      assert forall j :: 0 <= j < n ==> prefix[j] == scores[j];
      LeadingStep(scores, n, BestIndex(prefix));
    }
  }

  /** The language detection settles on, as a function of the trials. */
  function DetectedLanguage(trials: seq<Trial>): string {
    var best := BestIndex(Scores(trials));
    if best == -1 then English else trials[best].lang
  }

  /** `DetectedLanguage` is the one language `DetectedFrom` admits. */
  lemma DetectedLanguageFits(trials: seq<Trial>)
    ensures forall lang :: DetectedFrom(trials, lang) <==> lang == DetectedLanguage(trials)
  {
    var scores := Scores(trials);
    BestIndexLeads(scores);
    assert scores[..|scores|] == scores;
    assert DetectedFrom(trials, DetectedLanguage(trials));
    forall lang | DetectedFrom(trials, lang)
      ensures lang == DetectedLanguage(trials)
    {
      DetectedFromUnique(trials, lang, DetectedLanguage(trials));
    }
  }

  /** What one `_load_model` does with the loader: the calls it makes, the
      answer it ends with, and whether the model then runs on the CPU only. */
  datatype LoadRun = LoadRun(calls: seq<LoadRequest>, final: LoadAnswer, cpuOnly: bool)

  /** `_load_model`'s calls to the loader, `n` calls having been made before:
      one call, on the CPU provider when forced; one retry on the CPU provider
      only when an unforced call fails with the initializer error. */
  function LoadAttempt(onnx: Onnx, modelName: string, forceCpu: bool, n: nat): (run: LoadRun)
  {
    var first := LoadRequest(modelName, if forceCpu then CpuExecutionProvider else DefaultProviders);
    var answer := onnx.loadModel(first, n);
    if answer.LoadFailed? && !forceCpu && ShouldRetryWithCpu(answer.message) then
      var second := LoadRequest(modelName, CpuExecutionProvider);
      LoadRun([first, second], onnx.loadModel(second, n + 1), true)
    else
      LoadRun([first], answer, forceCpu)
  }

  /** At most one retry, always on the CPU provider, and only after an
      unforced call failed with the initializer error; the model then runs on
      the CPU only exactly when the CPU was forced or the retry happened. */
  lemma LoadAttemptRetry(onnx: Onnx, modelName: string, forceCpu: bool, n: nat)
    ensures var run := LoadAttempt(onnx, modelName, forceCpu, n);
      && 1 <= |run.calls| <= 2
      && (forall i :: 0 <= i < |run.calls| ==> run.calls[i].modelName == modelName)
      && run.calls[0].provider == (if forceCpu then CpuExecutionProvider else DefaultProviders)
      && (var first := onnx.loadModel(run.calls[0], n);
            |run.calls| == 2 <==> first.LoadFailed? && !forceCpu && ShouldRetryWithCpu(first.message))
      && (|run.calls| == 1 ==> run.final == onnx.loadModel(run.calls[0], n))
      && (|run.calls| == 2 ==>
            run.calls[1].provider == CpuExecutionProvider && run.final == onnx.loadModel(run.calls[1], n + 1))
      && (run.cpuOnly <==> forceCpu || |run.calls| == 2)
  {
  }

  /** Every load call from index `from` on asked for one of `names`. */
  predicate RequestsOnly(calls: seq<LoadRequest>, from: nat, names: set<string>) {
    forall i :: from <= i < |calls| ==> calls[i].modelName in names
  }

  /** Every load call from index `from` on that asks for the CPU provider is
      the retry of the call just before it: that one asked for the same model
      with the default providers and failed with the initializer error. */
  predicate CpuOnlyOnRetry(onnx: Onnx, calls: seq<LoadRequest>, from: nat) {
    forall i :: from <= i < |calls| && calls[i].provider == CpuExecutionProvider ==>
      && from < i
      && calls[i - 1] == LoadRequest(calls[i].modelName, DefaultProviders)
      && onnx.loadModel(calls[i - 1], i - 1).LoadFailed?
      && ShouldRetryWithCpu(onnx.loadModel(calls[i - 1], i - 1).message)
  }

  /** Two stretches of calls that each ask for the CPU only as a retry make
      one that does. */
  lemma CpuOnlyOnRetryJoin(onnx: Onnx, earlier: seq<LoadRequest>, later: seq<LoadRequest>, from: nat)
    requires earlier <= later && from <= |earlier|
    requires CpuOnlyOnRetry(onnx, earlier, from) && CpuOnlyOnRetry(onnx, later, |earlier|)
    ensures CpuOnlyOnRetry(onnx, later, from)
  {
    forall i | from <= i < |later| && later[i].provider == CpuExecutionProvider
      ensures from < i && later[i - 1] == LoadRequest(later[i].modelName, DefaultProviders)
    {
      if i < |earlier| {
        assert earlier[i] == later[i] && earlier[i - 1] == later[i - 1];
      }
    }
  }

  // ---------------------------------------------------------------------
  // The engine's state, as a value
  // ---------------------------------------------------------------------

  /** The configured model names (`_russian_model_name`, `_english_model_name`). */
  datatype ModelNames = ModelNames(russian: string, english: string) {
    /** `_model_name_for_language`: only "ru" and "en" have a model; any
        other language raises ValueError. */
    function ForLanguage(lang: string): (r: Result<string, Error>)
      ensures r.Success? <==> lang == Russian || lang == English
      ensures lang == Russian ==> r == Success(russian)
      ensures lang == English ==> r == Success(english)
      ensures r.Failure? ==> r.error == ValueError("Unknown language: " + lang)
    {
      if lang == Russian then Success(russian)
      else if lang == English then Success(english)
      else Failure(ValueError("Unknown language: " + lang))
    }

    /** The names of the Russian model (when `ru`) and of the English one
        (when `en`). */
    function Selected(ru: bool, en: bool): set<string> {
      (if ru then {russian} else {}) + (if en then {english} else {})
    }
  }

  /** Everything an engine updates: its language, the voice-activity
      detector, the loaded models by language with the order their languages
      were first added in (the iteration order of the dictionary), the
      languages that run on the CPU only, and every `load_model` call made. */
  datatype EngineState = EngineState(
    language: string,
    vad: Option<nat>,
    models: map<string, Model>,
    modelOrder: seq<string>,
    cpuOnlyLanguages: set<string>,
    loadCalls: seq<LoadRequest>)

  /** The order lists each loaded language exactly once. */
  predicate WellFormed(st: EngineState) {
    && (forall l :: l in st.modelOrder ==> l in st.models)
    && (forall l :: l in st.models ==> l in st.modelOrder)
    && (forall i, j :: 0 <= i < j < |st.modelOrder| ==> st.modelOrder[i] != st.modelOrder[j])
  }

  /** A procedure's outcome together with the state it leaves. */
  datatype Step<+T> = Step(result: T, state: EngineState)

  /** `_load_model(lang, model_name, force_cpu=...)`: the loader's calls are
      logged; a failure raises the last error and changes nothing else; a
      success installs the model, wrapped with the current detector, under
      `lang` (a new language goes to the end of the order) and records
      whether the language now runs on the CPU only. */
  function LoadModelStep(onnx: Onnx, st: EngineState, lang: string, modelName: string, forceCpu: bool)
    : (step: Step<Outcome<Error>>)
  {
    var run := LoadAttempt(onnx, modelName, forceCpu, |st.loadCalls|);
    var calls := st.loadCalls + run.calls;
    match run.final
    case LoadFailed(message) => Step(Fail(OnnxError(message)), st.(loadCalls := calls))
    case Loaded(handle) =>
      Step(Pass, st.(
        models := st.models[lang := WithVad(handle, st.vad)],
        modelOrder := if lang in st.models then st.modelOrder else st.modelOrder + [lang],
        cpuOnlyLanguages := if run.cpuOnly then st.cpuOnlyLanguages + {lang} else st.cpuOnlyLanguages - {lang},
        loadCalls := calls))
  }

  /** Loading logs exactly the loader's calls, succeeds exactly when the
      loader's last answer is a model, installs that model wrapped with the
      current detector or raises the loader's error, changes neither the
      language nor the detector, only asks for `modelName`, touches no other
      language's model, and on a failure leaves the models as they were. */
  lemma LoadModelStepEffects(onnx: Onnx, st: EngineState, lang: string, modelName: string, forceCpu: bool)
    ensures var step := LoadModelStep(onnx, st, lang, modelName, forceCpu);
      var run := LoadAttempt(onnx, modelName, forceCpu, |st.loadCalls|);
      && step.state.loadCalls == st.loadCalls + run.calls
      && (step.result.Pass? <==> run.final.Loaded?)
      && (step.result.Pass? ==> lang in step.state.models && step.state.models[lang] == WithVad(run.final.handle, st.vad))
      && (step.result.Fail? ==> step.result.error == OnnxError(run.final.message))
      && (step.result.Pass? ==>
          step.state.modelOrder == if lang in st.models then st.modelOrder else st.modelOrder + [lang])
      && step.state.language == st.language && step.state.vad == st.vad
      && st.loadCalls < step.state.loadCalls
      && RequestsOnly(step.state.loadCalls, |st.loadCalls|, {modelName})
      && (forall l :: l != lang ==> (l in step.state.models <==> l in st.models))
      && (forall l :: l != lang && l in st.models ==> step.state.models[l] == st.models[l])
      && (step.result.Pass? ==> lang in step.state.models && step.state.models[lang].vad == st.vad)
      && (step.result.Fail? ==>
          && step.state.models == st.models && step.state.modelOrder == st.modelOrder
          && step.state.cpuOnlyLanguages == st.cpuOnlyLanguages)
  {
  }

  /** Loading keeps the order and the dictionary in step. */
  lemma LoadModelStepWellFormed(onnx: Onnx, st: EngineState, lang: string, modelName: string, forceCpu: bool)
    requires WellFormed(st)
    ensures WellFormed(LoadModelStep(onnx, st, lang, modelName, forceCpu).state)
  {
    var post := LoadModelStep(onnx, st, lang, modelName, forceCpu).state;
    if post.modelOrder == st.modelOrder + [lang] {
      assert forall l :: l in post.modelOrder ==> l in st.modelOrder || l == lang;
    }
  }

  /** A language loaded with the CPU forced runs on the CPU only from then on;
      one loaded with the default providers does so only after the
      initializer-error retry. */
  lemma LoadModelStepCpuOnly(onnx: Onnx, st: EngineState, lang: string, modelName: string, forceCpu: bool)
    ensures var step := LoadModelStep(onnx, st, lang, modelName, forceCpu);
      step.result.Pass? ==>
        (lang in step.state.cpuOnlyLanguages <==> forceCpu || |step.state.loadCalls| == |st.loadCalls| + 2)
  {
  }

  /** Loading with the default providers asks for the CPU provider only as
      the retry after the initializer error; forcing the CPU asks once, on
      the CPU. */
  lemma LoadModelStepProviders(onnx: Onnx, st: EngineState, lang: string, modelName: string, forceCpu: bool)
    ensures var step := LoadModelStep(onnx, st, lang, modelName, forceCpu);
      && (!forceCpu ==> CpuOnlyOnRetry(onnx, step.state.loadCalls, |st.loadCalls|))
      && (forceCpu ==> step.state.loadCalls == st.loadCalls + [LoadRequest(modelName, CpuExecutionProvider)])
  {
    var calls := LoadModelStep(onnx, st, lang, modelName, forceCpu).state.loadCalls;
    var n := |st.loadCalls|;
    if !forceCpu {
      forall i | n <= i < |calls| && calls[i].provider == CpuExecutionProvider
        ensures n < i && calls[i - 1] == LoadRequest(calls[i].modelName, DefaultProviders)
      {
        assert calls[n].provider == DefaultProviders;
      }
    }
  }

  /** `initialize`: the detector is loaded first (its failure is raised
      before anything changes); then the Russian model when the language is
      "ru" or "auto" and the English one when it is "en" or "auto"; the
      result lists the names loaded, in that order. */
  function InitializeStep(onnx: Onnx, names: ModelNames, st: EngineState): (step: Step<Result<seq<string>, Error>>)
  {
    LanguagesDistinct();
    match onnx.vad
    case LoadFailed(message) => Step(Failure(OnnxError(message)), st)
    case Loaded(handle) =>
      var ready := st.(vad := Some(handle));
      var ru := if Needs(st.language, Russian) then LoadModelStep(onnx, ready, Russian, names.russian, false)
                else Step(Pass, ready);
      if ru.result.Fail? then Step(Failure(ru.result.error), ru.state)
      else
        var en := if Needs(st.language, English) then LoadModelStep(onnx, ru.state, English, names.english, false)
                  else Step(Pass, ru.state);
        if en.result.Fail? then Step(Failure(en.result.error), en.state)
        else
          Step(Success((if Needs(st.language, Russian) then [names.russian] else [])
                       + (if Needs(st.language, English) then [names.english] else [])),
               en.state)
  }

  /** What `initialize` promises: it asks only for the models its language
      needs, touches no other model, raises a detector failure before changing
      anything, and on success every needed model is loaded with the detector. */
  lemma InitializeStepEffects(onnx: Onnx, names: ModelNames, st: EngineState)
    ensures var step := InitializeStep(onnx, names, st);
      && step.state.language == st.language
      && st.loadCalls <= step.state.loadCalls
      && (RequestsOnly(step.state.loadCalls, |st.loadCalls|,
          names.Selected(Needs(st.language, Russian), Needs(st.language, English))))
      && (forall l :: l in step.state.models ==> l in st.models || Needs(st.language, l))
      && (forall l :: l in st.models && !Needs(st.language, l) ==>
          l in step.state.models && step.state.models[l] == st.models[l])
      && (onnx.vad.LoadFailed? ==> step == Step(Failure(OnnxError(onnx.vad.message)), st))
      && (onnx.vad.Loaded? ==> step.state.vad == Some(onnx.vad.handle))
      && (step.result.Success? ==> forall l :: Needs(st.language, l) ==>
          l in step.state.models && step.state.models[l].vad == step.state.vad)
      && (step.result.Success? ==>
          step.result.value == (if Needs(st.language, Russian) then [names.russian] else [])
                               + (if Needs(st.language, English) then [names.english] else []))
      && (step.result.Success? ==>
          var ruRun := LoadAttempt(onnx, names.russian, false, |st.loadCalls|);
          var enRun := LoadAttempt(onnx, names.english, false,
                         |st.loadCalls| + if Needs(st.language, Russian) then |ruRun.calls| else 0);
          && (Needs(st.language, Russian) ==>
              && ruRun.final.Loaded? && Russian in step.state.models
              && step.state.models[Russian] == WithVad(ruRun.final.handle, step.state.vad))
          && (Needs(st.language, English) ==>
              && enRun.final.Loaded? && English in step.state.models
              && step.state.models[English] == WithVad(enRun.final.handle, step.state.vad)))
  {
    LanguagesDistinct();
    if onnx.vad.Loaded? {
      var ready := st.(vad := Some(onnx.vad.handle));
      LoadModelStepEffects(onnx, ready, Russian, names.russian, false);
      var ru := if Needs(st.language, Russian) then LoadModelStep(onnx, ready, Russian, names.russian, false)
                else Step(Pass, ready);
      LoadModelStepEffects(onnx, ru.state, English, names.english, false);
    }
  }

  /** `initialize` appends the languages it loads to the order, "ru" before
      "en", so a fresh "auto" engine tries "ru" first and keeps it on a tie in
      detection. */
  lemma InitializeStepOrder(onnx: Onnx, names: ModelNames, st: EngineState)
    ensures var step := InitializeStep(onnx, names, st);
      step.result.Success? ==>
        step.state.modelOrder == st.modelOrder
          + (if Needs(st.language, Russian) && Russian !in st.models then [Russian] else [])
          + (if Needs(st.language, English) && English !in st.models then [English] else [])
  {
    LanguagesDistinct();
    if onnx.vad.Loaded? {
      var ready := st.(vad := Some(onnx.vad.handle));
      LoadModelStepEffects(onnx, ready, Russian, names.russian, false);
      var ru := if Needs(st.language, Russian) then LoadModelStep(onnx, ready, Russian, names.russian, false)
                else Step(Pass, ready);
      LoadModelStepEffects(onnx, ru.state, English, names.english, false);
    }
  }

  /** Of two trials with equally long, non-empty texts, the first one's
      language is detected. */
  lemma TieGoesToFirst(trials: seq<Trial>)
    requires |trials| == 2 && Score(trials[0]) == Score(trials[1]) > 0
    ensures DetectedFrom(trials, trials[0].lang)
  {
    var scores := Scores(trials);
    assert scores == [Score(trials[0]), Score(trials[0])];
    assert FirstLongest(scores, 0);
  }

  /** An "auto" engine initialised with no model loaded yet, as a new one
      is, tries "ru" before "en" in detection, so when both models produce
      equally long, non-empty texts, "ru" is detected. */
  lemma FreshAutoTieGoesToRussian(onnx: Onnx, names: ModelNames, st: EngineState, sample: Samples, sampleRate: int)
    requires st.language == AutoLanguage && st.models == map[] && st.modelOrder == []
    ensures var step := InitializeStep(onnx, names, st);
      step.result.Success? ==>
        && step.state.modelOrder == [Russian, English]
        && (InitializeStepWellFormed(onnx, names, st);
            var trials := Trials(onnx, step.state.modelOrder, step.state.models, sample, sampleRate);
            Score(trials[0]) == Score(trials[1]) > 0 ==> DetectedFrom(trials, Russian))
  {
    InitializeStepOrder(onnx, names, st);
    InitializeStepWellFormed(onnx, names, st);
    var step := InitializeStep(onnx, names, st);
    if step.result.Success? {
      var trials := Trials(onnx, step.state.modelOrder, step.state.models, sample, sampleRate);
      if Score(trials[0]) == Score(trials[1]) > 0 {
        TieGoesToFirst(trials);
      }
    }
  }

  /** `initialize` loads on the default providers: it asks for the CPU
      provider only as the retry after the initializer error, and on success
      each language it loads runs on the CPU only exactly when its load made
      that retry. */
  lemma InitializeStepProviders(onnx: Onnx, names: ModelNames, st: EngineState)
    ensures var step := InitializeStep(onnx, names, st);
      && CpuOnlyOnRetry(onnx, step.state.loadCalls, |st.loadCalls|)
      && (step.result.Success? ==>
          var ruRun := LoadAttempt(onnx, names.russian, false, |st.loadCalls|);
          var enRun := LoadAttempt(onnx, names.english, false,
                         |st.loadCalls| + if Needs(st.language, Russian) then |ruRun.calls| else 0);
          && (Needs(st.language, Russian) ==> (Russian in step.state.cpuOnlyLanguages <==> |ruRun.calls| == 2))
          && (Needs(st.language, English) ==> (English in step.state.cpuOnlyLanguages <==> |enRun.calls| == 2)))
  {
    LanguagesDistinct();
    if onnx.vad.Loaded? {
      var ready := st.(vad := Some(onnx.vad.handle));
      var ru := if Needs(st.language, Russian) then LoadModelStep(onnx, ready, Russian, names.russian, false)
                else Step(Pass, ready);
      var en := if Needs(st.language, English) then LoadModelStep(onnx, ru.state, English, names.english, false)
                else Step(Pass, ru.state);
      LoadModelStepProviders(onnx, ready, Russian, names.russian, false);
      LoadModelStepProviders(onnx, ru.state, English, names.english, false);
      LoadModelStepCpuOnly(onnx, ready, Russian, names.russian, false);
      LoadModelStepCpuOnly(onnx, ru.state, English, names.english, false);
      CpuOnlyOnRetryJoin(onnx, ru.state.loadCalls, en.state.loadCalls, |st.loadCalls|);
    }
  }

  /** Initialising keeps the order and the dictionary in step. */
  lemma InitializeStepWellFormed(onnx: Onnx, names: ModelNames, st: EngineState)
    requires WellFormed(st)
    ensures WellFormed(InitializeStep(onnx, names, st).state)
  {
    if onnx.vad.Loaded? {
      var ready := st.(vad := Some(onnx.vad.handle));
      LoadModelStepWellFormed(onnx, ready, Russian, names.russian, false);
      var ru := if Needs(st.language, Russian) then LoadModelStep(onnx, ready, Russian, names.russian, false)
                else Step(Pass, ready);
      LoadModelStepWellFormed(onnx, ru.state, English, names.english, false);
    }
  }

  /** `set_language`: the language changes, and whichever model it needs
      ("ru", "en", or both for "auto") is loaded when it is not loaded yet. */
  function SetLanguageStep(onnx: Onnx, names: ModelNames, st: EngineState, language: string)
    : (step: Step<Outcome<Error>>)
  {
    LanguagesDistinct();
    var switched := st.(language := language);
    if language == Russian && Russian !in st.models then
      LoadModelStep(onnx, switched, Russian, names.russian, false)
    else if language == English && English !in st.models then
      LoadModelStep(onnx, switched, English, names.english, false)
    else if language == AutoLanguage then
      var ru := if Russian !in st.models then LoadModelStep(onnx, switched, Russian, names.russian, false)
                else Step(Pass, switched);
      if ru.result.Fail? then ru
      else if English !in ru.state.models then LoadModelStep(onnx, ru.state, English, names.english, false)
      else ru
    else
      Step(Pass, switched)
  }

  /** What `set_language` promises: a model already loaded is never reloaded
      or replaced, only missing models the new language needs are asked for,
      and on success all of them are loaded. */
  lemma SetLanguageStepEffects(onnx: Onnx, names: ModelNames, st: EngineState, language: string)
    ensures var step := SetLanguageStep(onnx, names, st, language);
      && step.state.language == language && step.state.vad == st.vad
      && st.loadCalls <= step.state.loadCalls
      && (RequestsOnly(step.state.loadCalls, |st.loadCalls|,
          names.Selected(Needs(language, Russian) && Russian !in st.models,
                         Needs(language, English) && English !in st.models)))
      && (forall l :: l in st.models ==> l in step.state.models && step.state.models[l] == st.models[l])
      && (forall l :: l in step.state.models ==> l in st.models || Needs(language, l))
      && (step.result.Pass? ==> forall l :: Needs(language, l) ==> l in step.state.models)
      && (step.result.Pass? ==>
          var loadRu := Needs(language, Russian) && Russian !in st.models;
          var loadEn := Needs(language, English) && English !in st.models;
          var ruRun := LoadAttempt(onnx, names.russian, false, |st.loadCalls|);
          var enRun := LoadAttempt(onnx, names.english, false,
                         |st.loadCalls| + if loadRu then |ruRun.calls| else 0);
          && (loadRu ==>
              && ruRun.final.Loaded? && Russian in step.state.models
              && step.state.models[Russian] == WithVad(ruRun.final.handle, st.vad))
          && (loadEn ==>
              && enRun.final.Loaded? && English in step.state.models
              && step.state.models[English] == WithVad(enRun.final.handle, st.vad)))
  {
    LanguagesDistinct();
    var switched := st.(language := language);
    if language == Russian && Russian !in st.models {
      LoadModelStepEffects(onnx, switched, Russian, names.russian, false);
    } else if language == English && English !in st.models {
      LoadModelStepEffects(onnx, switched, English, names.english, false);
    } else if language == AutoLanguage {
      var ru := if Russian !in st.models then LoadModelStep(onnx, switched, Russian, names.russian, false)
                else Step(Pass, switched);
      if Russian !in st.models {
        LoadModelStepEffects(onnx, switched, Russian, names.russian, false);
      }
      if ru.result.Pass? && English !in ru.state.models {
        LoadModelStepEffects(onnx, ru.state, English, names.english, false);
      }
    }
  }

  /** Switching the language keeps the order and the dictionary in step. */
  lemma SetLanguageStepWellFormed(onnx: Onnx, names: ModelNames, st: EngineState, language: string)
    requires WellFormed(st)
    ensures WellFormed(SetLanguageStep(onnx, names, st, language).state)
  {
    var switched := st.(language := language);
    LoadModelStepWellFormed(onnx, switched, Russian, names.russian, false);
    LoadModelStepWellFormed(onnx, switched, English, names.english, false);
    var ru := if Russian !in st.models then LoadModelStep(onnx, switched, Russian, names.russian, false)
              else Step(Pass, switched);
    LoadModelStepWellFormed(onnx, ru.state, English, names.english, false);
  }

  /** `set_language` appends the languages it loads to the order, "ru"
      before "en". */
  lemma SetLanguageStepOrder(onnx: Onnx, names: ModelNames, st: EngineState, language: string)
    ensures var step := SetLanguageStep(onnx, names, st, language);
      step.result.Pass? ==>
        step.state.modelOrder == st.modelOrder
          + (if Needs(language, Russian) && Russian !in st.models then [Russian] else [])
          + (if Needs(language, English) && English !in st.models then [English] else [])
  {
    LanguagesDistinct();
    var switched := st.(language := language);
    if language == Russian && Russian !in st.models {
      LoadModelStepEffects(onnx, switched, Russian, names.russian, false);
    } else if language == English && English !in st.models {
      LoadModelStepEffects(onnx, switched, English, names.english, false);
    } else if language == AutoLanguage {
      var ru := if Russian !in st.models then LoadModelStep(onnx, switched, Russian, names.russian, false)
                else Step(Pass, switched);
      if Russian !in st.models {
        LoadModelStepEffects(onnx, switched, Russian, names.russian, false);
      }
      if ru.result.Pass? && English !in ru.state.models {
        LoadModelStepEffects(onnx, ru.state, English, names.english, false);
      }
    }
  }

  /** `set_language` loads on the default providers: it asks for the CPU
      provider only as the retry after the initializer error, and on success
      each language it loads runs on the CPU only exactly when its load made
      that retry. */
  lemma SetLanguageStepProviders(onnx: Onnx, names: ModelNames, st: EngineState, language: string)
    ensures var step := SetLanguageStep(onnx, names, st, language);
      var loadRu := Needs(language, Russian) && Russian !in st.models;
      var loadEn := Needs(language, English) && English !in st.models;
      && CpuOnlyOnRetry(onnx, step.state.loadCalls, |st.loadCalls|)
      && (step.result.Pass? ==>
          var ruRun := LoadAttempt(onnx, names.russian, false, |st.loadCalls|);
          var enRun := LoadAttempt(onnx, names.english, false,
                         |st.loadCalls| + if loadRu then |ruRun.calls| else 0);
          && (loadRu ==> (Russian in step.state.cpuOnlyLanguages <==> |ruRun.calls| == 2))
          && (loadEn ==> (English in step.state.cpuOnlyLanguages <==> |enRun.calls| == 2)))
  {
    LanguagesDistinct();
    var switched := st.(language := language);
    if language == Russian && Russian !in st.models {
      LoadModelStepProviders(onnx, switched, Russian, names.russian, false);
      LoadModelStepCpuOnly(onnx, switched, Russian, names.russian, false);
    } else if language == English && English !in st.models {
      LoadModelStepProviders(onnx, switched, English, names.english, false);
      LoadModelStepCpuOnly(onnx, switched, English, names.english, false);
    } else if language == AutoLanguage {
      var ru := if Russian !in st.models then LoadModelStep(onnx, switched, Russian, names.russian, false)
                else Step(Pass, switched);
      if Russian !in st.models {
        LoadModelStepProviders(onnx, switched, Russian, names.russian, false);
        LoadModelStepCpuOnly(onnx, switched, Russian, names.russian, false);
        LoadModelStepEffects(onnx, switched, Russian, names.russian, false);
      }
      if ru.result.Pass? && English !in ru.state.models {
        var en := LoadModelStep(onnx, ru.state, English, names.english, false);
        LoadModelStepProviders(onnx, ru.state, English, names.english, false);
        LoadModelStepCpuOnly(onnx, ru.state, English, names.english, false);
        LoadModelStepEffects(onnx, ru.state, English, names.english, false);
        CpuOnlyOnRetryJoin(onnx, ru.state.loadCalls, en.state.loadCalls, |st.loadCalls|);
      }
    }
  }

  /** Setting a language again once it succeeded loads nothing and changes
      nothing. */
  lemma SetLanguageTwice(onnx: Onnx, names: ModelNames, st: EngineState, language: string)
    requires SetLanguageStep(onnx, names, st, language).result.Pass?
    ensures var once := SetLanguageStep(onnx, names, st, language).state;
      SetLanguageStep(onnx, names, once, language) == Step(Pass, once)
  {
    LanguagesDistinct();
  }

  /** `recognize` once the language is resolved to `lang`: ValueError when
      no model is loaded for it; otherwise that model's outcome, except that
      a CoreML runtime failure of a language not on the CPU only reloads its
      model with the CPU forced (an unknown language raising ValueError
      instead) and runs it once more. */
  function RecognizeStep(onnx: Onnx, names: ModelNames, st: EngineState, audio: Samples, sampleRate: int, lang: string)
    : (step: Step<Result<seq<Segment>, Error>>)
  {
    if lang !in st.models then Step(Failure(ValueError("No model loaded for language: " + lang)), st)
    else
      var first := RecognitionOutcome(onnx.recognize(st.models[lang], audio, sampleRate), lang);
      if first.Success? || lang in st.cpuOnlyLanguages || !IsCoreMLRuntimeFailure(first.error.message) then
        Step(first, st)
      else
        var modelName := names.ForLanguage(lang);
        if modelName.Failure? then Step(Failure(modelName.error), st)
        else
          var reload := LoadModelStep(onnx, st, lang, modelName.value, true);
          if reload.result.Fail? then Step(Failure(reload.result.error), reload.state)
          else Step(RecognitionOutcome(onnx.recognize(reload.state.models[lang], audio, sampleRate), lang), reload.state)
  }

  /** What `recognize` promises once the language is resolved: at most one
      reload, only on a CoreML runtime failure of "ru" or "en" not yet on the
      CPU only, asking for its model on the CPU provider; the language and the
      order are untouched; a language on the CPU only changes nothing; and
      every segment returned is stripped, non-empty and tagged with `lang`. */
  lemma RecognizeStepEffects(onnx: Onnx, names: ModelNames, st: EngineState, audio: Samples, sampleRate: int, lang: string)
    ensures var step := RecognizeStep(onnx, names, st, audio, sampleRate, lang);
      && (lang !in st.models ==>
          step == Step(Failure(ValueError("No model loaded for language: " + lang)), st))
      && (lang in st.models ==>
          var first := RecognitionOutcome(onnx.recognize(st.models[lang], audio, sampleRate), lang);
          && (first.Success? || lang in st.cpuOnlyLanguages || !IsCoreMLRuntimeFailure(first.error.message) ==>
              step == Step(first, st))
          && lang in step.state.models
          && (lang !in st.cpuOnlyLanguages && lang in step.state.cpuOnlyLanguages ==>
              && step.result == RecognitionOutcome(onnx.recognize(step.state.models[lang], audio, sampleRate), lang)
              && (lang == Russian || lang == English)
              && var reload := LoadAttempt(onnx, names.ForLanguage(lang).value, true, |st.loadCalls|);
                 && reload.final.Loaded?
                 && step.state.models[lang] == WithVad(reload.final.handle, st.vad)
                 && step.state.loadCalls == st.loadCalls + [LoadRequest(names.ForLanguage(lang).value, CpuExecutionProvider)])
          && (first.Failure? && lang !in st.cpuOnlyLanguages && IsCoreMLRuntimeFailure(first.error.message)
              && lang != Russian && lang != English ==>
              step == Step(Failure(ValueError("Unknown language: " + lang)), st))
          && (|step.state.loadCalls| > |st.loadCalls| && lang !in step.state.cpuOnlyLanguages ==>
              && (lang == Russian || lang == English)
              && step.result == Failure(OnnxError(
                   LoadAttempt(onnx, names.ForLanguage(lang).value, true, |st.loadCalls|).final.message))
              && step.state.models == st.models))
      && step.state.language == st.language && step.state.vad == st.vad
      && step.state.modelOrder == st.modelOrder
      && st.loadCalls <= step.state.loadCalls && |step.state.loadCalls| <= |st.loadCalls| + 1
      && (lang in st.cpuOnlyLanguages ==> step.state == st)
      && (|step.state.loadCalls| > |st.loadCalls| ==>
          && lang in st.models && (lang == Russian || lang == English)
          && onnx.recognize(st.models[lang], audio, sampleRate).InferenceFailed?
          && IsCoreMLRuntimeFailure(onnx.recognize(st.models[lang], audio, sampleRate).message)
          && step.state.loadCalls[|st.loadCalls|] == LoadRequest(names.ForLanguage(lang).value, CpuExecutionProvider))
      && (step.state.models != st.models ==> lang in step.state.cpuOnlyLanguages)
      && (step.result.Success? ==> forall s :: s in step.result.value ==>
          s.language == lang && s.source == None && s.text != [] && IsStripped(s.text))
  {
    if lang in st.models {
      RecognitionOutcomeShape(onnx.recognize(st.models[lang], audio, sampleRate), lang);
      if lang == Russian || lang == English {
        var reload := LoadModelStep(onnx, st, lang, names.ForLanguage(lang).value, true);
        LoadModelStepEffects(onnx, st, lang, names.ForLanguage(lang).value, true);
        if lang in reload.state.models {
          RecognitionOutcomeShape(onnx.recognize(reload.state.models[lang], audio, sampleRate), lang);
        }
      }
    }
  }

  /** Recognising, reload included, keeps the order and the dictionary in step. */
  lemma RecognizeStepWellFormed(onnx: Onnx, names: ModelNames, st: EngineState, audio: Samples, sampleRate: int, lang: string)
    requires WellFormed(st)
    ensures WellFormed(RecognizeStep(onnx, names, st, audio, sampleRate, lang).state)
  {
    if lang == Russian || lang == English {
      LoadModelStepWellFormed(onnx, st, lang, names.ForLanguage(lang).value, true);
    }
  }

  /** Every model, in the dictionary's order, tried on `sample`. */
  function Trials(onnx: Onnx, order: seq<string>, models: map<string, Model>, sample: Samples, sampleRate: int): (trials: seq<Trial>)
    requires forall l :: l in order ==> l in models
    ensures |trials| == |order|
    ensures forall i :: 0 <= i < |order| ==>
      trials[i] == Trial(order[i], onnx.recognize(models[order[i]], sample, sampleRate))
  {
    seq(|order|, i requires 0 <= i < |order| =>
      Trial(order[i], onnx.recognize(models[order[i]], sample, sampleRate)))
  }

  /** The language `recognize(audio, sample_rate, language=requested)`
      runs: `requested or self._language`, detected when that is "auto". */
  function ResolvedLanguage(onnx: Onnx, st: EngineState, audio: Samples, sampleRate: int, requested: Option<string>)
    : string
    requires WellFormed(st)
  {
    var lang := RequestedLanguage(requested, st.language);
    if lang == AutoLanguage then
      DetectedLanguage(Trials(onnx, st.modelOrder, st.models, SampleWindow(audio, sampleRate), sampleRate))
    else lang
  }

  // ---------------------------------------------------------------------
  // The engine
  // ---------------------------------------------------------------------

  class ASREngine {
    const onnx: Onnx
    const russianModelName: string
    const englishModelName: string

    var language: string
    var vad: Option<nat>
    /** The loaded models by language, and the order their languages were
        first added in. */
    var models: map<string, Model>
    var modelOrder: seq<string>
    var cpuOnlyLanguages: set<string>
    /** Every `load_model` call made so far, in order. */
    var loadCalls: seq<LoadRequest>

    function Names(): ModelNames {
      ModelNames(russianModelName, englishModelName)
    }

    function State(): EngineState
      reads this
    {
      EngineState(language, vad, models, modelOrder, cpuOnlyLanguages, loadCalls)
    }

    ghost predicate Valid()
      reads this
    {
      WellFormed(State())
    }

    constructor(
      onnx: Onnx,
      russianModel: string := DefaultRussianModel,
      englishModel: string := DefaultEnglishModel,
      language: string := AutoLanguage)
      ensures Valid()
      ensures this.onnx == onnx && Names() == ModelNames(russianModel, englishModel)
      ensures State() == EngineState(language, None, map[], [], {}, [])
    {
      this.onnx := onnx;
      russianModelName := russianModel;
      englishModelName := englishModel;
      this.language := language;
      vad := None;
      models := map[];
      modelOrder := [];
      cpuOnlyLanguages := {};
      loadCalls := [];
    }

    /** `_load_model`: one load call (on the CPU provider when forced) and,
        after an initializer error with the CPU not forced, one more on the
        CPU provider. */
    method LoadModel(lang: string, modelName: string, forceCpu: bool) returns (status: Outcome<Error>)
      modifies this
      ensures Step(status, State()) == LoadModelStep(onnx, old(State()), lang, modelName, forceCpu)
    {
      ghost var run := LoadAttempt(onnx, modelName, forceCpu, |loadCalls|);
      var first := LoadRequest(modelName, if forceCpu then CpuExecutionProvider else DefaultProviders);
      var answer := onnx.loadModel(first, |loadCalls|);
      loadCalls := loadCalls + [first];
      var handle: nat;
      if answer.LoadFailed? {
        if forceCpu || !ShouldRetryWithCpu(answer.message) {
          assert run == LoadRun([first], answer, forceCpu);
          return Fail(OnnxError(answer.message));
        }
        var second := LoadRequest(modelName, CpuExecutionProvider);
        var retry := onnx.loadModel(second, |loadCalls|);
        loadCalls := loadCalls + [second];
        assert run == LoadRun([first, second], retry, true);
        if retry.LoadFailed? {
          return Fail(OnnxError(retry.message));
        }
        handle := retry.handle;
        cpuOnlyLanguages := cpuOnlyLanguages + {lang};
      } else {
        assert run == LoadRun([first], answer, forceCpu);
        handle := answer.handle;
        if forceCpu {
          cpuOnlyLanguages := cpuOnlyLanguages + {lang};
        } else {
          cpuOnlyLanguages := cpuOnlyLanguages - {lang};
        }
      }
      if lang !in models {
        modelOrder := modelOrder + [lang];
      }
      models := models[lang := WithVad(handle, vad)];
      status := Pass;
    }

    /** `initialize`: the detector, then the models the language needs. */
    method Initialize() returns (r: Result<seq<string>, Error>)
      requires Valid()
      modifies this
      ensures Valid()
      ensures Step(r, State()) == InitializeStep(onnx, Names(), old(State()))
    {
      InitializeStepWellFormed(onnx, Names(), State());
      LanguagesDistinct();
      if onnx.vad.LoadFailed? {
        return Failure(OnnxError(onnx.vad.message));
      }
      vad := Some(onnx.vad.handle);
      ghost var ready := State();
      assert ready == old(State()).(vad := Some(onnx.vad.handle));
      var loaded := [];
      if language == Russian || language == AutoLanguage {
        var status := LoadModel(Russian, russianModelName, false);
        if status.Fail? {
          return Failure(status.error);
        }
        loaded := loaded + [russianModelName];
      }
      ghost var ru := if Needs(language, Russian) then LoadModelStep(onnx, ready, Russian, russianModelName, false)
                      else Step(Pass, ready);
      assert ru == Step(Pass, State());
      assert loaded == if Needs(language, Russian) then [russianModelName] else [];
      if language == English || language == AutoLanguage {
        var status := LoadModel(English, englishModelName, false);
        if status.Fail? {
          return Failure(status.error);
        }
        loaded := loaded + [englishModelName];
      }
      assert Step(Pass, State()) == if Needs(language, English) then LoadModelStep(onnx, ru.state, English, englishModelName, false)
                                    else Step(Pass, ru.state);
      assert loaded == (if Needs(language, Russian) then [russianModelName] else [])
                       + (if Needs(language, English) then [englishModelName] else []);
      return Success(loaded);
    }

    /** `set_language`: switches the language, loading what it needs. */
    method SetLanguage(newLanguage: string) returns (status: Outcome<Error>)
      requires Valid()
      modifies this
      ensures Valid()
      ensures Step(status, State()) == SetLanguageStep(onnx, Names(), old(State()), newLanguage)
    {
      SetLanguageStepWellFormed(onnx, Names(), State(), newLanguage);
      language := newLanguage;
      status := Pass;
      if newLanguage == Russian && Russian !in models {
        status := LoadModel(Russian, russianModelName, false);
      } else if newLanguage == English && English !in models {
        status := LoadModel(English, englishModelName, false);
      } else if newLanguage == AutoLanguage {
        if Russian !in models {
          status := LoadModel(Russian, russianModelName, false);
          if status.Fail? {
            return;
          }
        }
        if English !in models {
          status := LoadModel(English, englishModelName, false);
        }
      }
    }

    /** `_detect_language`: every loaded model, in loading order, is tried on
        the first five seconds of audio; the language whose model produced
        the longest stripped text wins, the earlier one on a tie, and "en"
        when none produced any. Models that raise are skipped. */
    method DetectLanguage(audio: Samples, sampleRate: int) returns (lang: string)
      requires Valid()
      ensures DetectedFrom(Trials(onnx, modelOrder, models, SampleWindow(audio, sampleRate), sampleRate), lang)
    {
      var sample := SampleWindow(audio, sampleRate);
      ghost var trials := Trials(onnx, modelOrder, models, sample, sampleRate);
      ghost var scores := Scores(trials);
      lang := English;
      var bestLen := 0;
      ghost var best := -1;
      for i := 0 to |modelOrder|
        invariant Leading(scores, i, best)
        invariant bestLen == if best == -1 then 0 else scores[best]
        invariant lang == if best == -1 then English else trials[best].lang
      {
        var candidate := modelOrder[i];
        var inference := onnx.recognize(models[candidate], sample, sampleRate);
        assert trials[i] == Trial(candidate, inference);
        LeadingStep(scores, i, best);
        if inference.Recognized? {
          var text := ConcatenateTexts(inference.segments);
          var length := |Strip(text)|;
          assert scores[i] == Score(trials[i]) == length;
          if length > bestLen {
            bestLen := length;
            lang := candidate;
            best := i;
          }
        } else {
          assert scores[i] == Score(trials[i]) == 0;
        }
      }
      assert scores[..|scores|] == scores;
    }

    /** `_run_recognition`: one inference, whose non-blank segments are
        emitted in order, stripped and tagged with `lang`. */
    method RunRecognition(model: Model, audio: Samples, sampleRate: int, lang: string)
      returns (r: Result<seq<Segment>, Error>)
      ensures r == RecognitionOutcome(onnx.recognize(model, audio, sampleRate), lang)
    {
      var inference := onnx.recognize(model, audio, sampleRate);
      if inference.InferenceFailed? {
        return Failure(OnnxError(inference.message));
      }
      var raw := inference.segments;
      var segments := [];
      for i := 0 to |raw|
        invariant segments == Normalize(raw[..i], lang)
      {
        var text := Strip(raw[i].text);
        if text != [] {
          segments := segments + [Segment(raw[i].start, raw[i].end, text, lang, None)];
        }
        NormalizeSnoc(raw, i, lang);
      }
      assert raw[..|raw|] == raw;
      return Success(segments);
    }

    /** `recognize`: resolves the language (`language or self._language`,
        detected when "auto") and proceeds as `RecognizeStep` says. */
    method Recognize(audio: Samples, sampleRate: int, requested: Option<string> := None)
      returns (r: Result<seq<Segment>, Error>, ghost lang: string)
      requires Valid()
      modifies this
      ensures Valid()
      ensures old(RequestedLanguage(requested, language)) != AutoLanguage ==>
        lang == old(RequestedLanguage(requested, language))
      ensures old(RequestedLanguage(requested, language)) == AutoLanguage ==>
        DetectedFrom(old(Trials(onnx, modelOrder, models, SampleWindow(audio, sampleRate), sampleRate)), lang)
      ensures Step(r, State()) == RecognizeStep(onnx, Names(), old(State()), audio, sampleRate, lang)
    {
      var resolved := RequestedLanguage(requested, language);
      if resolved == AutoLanguage {
        resolved := DetectLanguage(audio, sampleRate);
        assert DetectedFrom(old(Trials(onnx, modelOrder, models, SampleWindow(audio, sampleRate), sampleRate)), resolved);
      }
      lang := resolved;
      ghost var before := State();
      ghost var step := RecognizeStep(onnx, Names(), before, audio, sampleRate, resolved);
      RecognizeStepWellFormed(onnx, Names(), before, audio, sampleRate, resolved);
      if resolved !in models {
        assert step == Step(Failure(ValueError("No model loaded for language: " + resolved)), before);
        return Failure(ValueError("No model loaded for language: " + resolved)), lang;
      }
      r := RunRecognition(models[resolved], audio, sampleRate, resolved);
      if r.Success? || resolved in cpuOnlyLanguages || !IsCoreMLRuntimeFailure(r.error.message) {
        assert step == Step(r, before);
        return;
      }
      var modelName := Names().ForLanguage(resolved);
      if modelName.Failure? {
        assert step == Step(Failure(modelName.error), before);
        return Failure(modelName.error), lang;
      }
      var reload := LoadModel(resolved, modelName.value, true);
      LoadModelStepEffects(onnx, before, resolved, modelName.value, true);
      if reload.Fail? {
        assert step == Step(Failure(reload.error), State());
        return Failure(reload.error), lang;
      }
      assert resolved in models;
      r := RunRecognition(models[resolved], audio, sampleRate, resolved);
      assert step == Step(r, State());
    }
  }
}

=== FILE: language.dfy ===
/** The language setting of the client: "ru", "en" or "auto". */
module Language {
  import opened Wrappers

  const Auto := "auto"

  datatype LanguageState = LanguageState(current: string) {

    /** The language to hand to the recogniser; None asks it to detect one.
        Only "auto" means detection, and no other setting is altered. */
    function EffectiveLanguage(): (r: Option<string>)
      ensures r.None? <==> current == Auto
      ensures r.Some? ==> r.value == current
      ensures r != Some(Auto)
    {
      if current == Auto then None else Some(current)
    }
  }

  /** The state a fresh `LanguageState()` starts in: auto-detection. */
  function DefaultState(): (s: LanguageState)
    ensures s.current == Auto && s.EffectiveLanguage() == None
  {
    LanguageState(Auto)
  }
}

=== FILE: protocol.dfy ===
/** The line protocol between the macOS app and the transcription engine:
    the one command the engine accepts, and the events it answers with.
    A command arrives as a JSON object, given here already decoded into its
    key/value pairs. */
module Protocol {
  import opened Wrappers
  import opened Segments

  const TranscribeType := "transcribe"

  /** The keys a transcribe command reads. */
  const TypeKey := "type"
  const AudioPathKey := "audio_path"
  const LanguageKey := "language"
  const RussianModelKey := "russian_model"
  const EnglishModelKey := "english_model"

  /** The defaults of the command's fields. */
  const DefaultAudioPath := ""
  const DefaultLanguage := "auto"
  const DefaultRussianModel := "gigaam-v3-rnnt"
  const DefaultEnglishModel := "whisper-base"

  datatype TranscribeCommand = TranscribeCommand(
    commandType: string,
    audioPath: string,
    language: string,
    russianModel: string,
    englishModel: string)

  /** The exception `parse_command` raises. */
  datatype ValueError = ValueError(message: string)

  /** `data.get(key, default)`. */
  function Get(data: map<string, string>, key: string, default: string): string {
    if key in data then data[key] else default
  }

  /** Python's `str(data.get("type"))`, which prints a missing key as None. */
  function TypeText(data: map<string, string>): string {
    Get(data, TypeKey, "None")
  }

  /** `parse_command`: a "transcribe" object becomes a command whose fields
      are the supplied values or their defaults; any other type, or none,
      is rejected with "Unknown command type". */
  function ParseCommand(data: map<string, string>): (r: Result<TranscribeCommand, ValueError>)
    ensures r.Success? <==> TypeKey in data && data[TypeKey] == TranscribeType
    ensures r.Success? ==>
      && r.value.commandType == TranscribeType
      && (AudioPathKey in data ==> r.value.audioPath == data[AudioPathKey])
      && (AudioPathKey !in data ==> r.value.audioPath == DefaultAudioPath)
      && (LanguageKey in data ==> r.value.language == data[LanguageKey])
      && (LanguageKey !in data ==> r.value.language == DefaultLanguage)
      && (RussianModelKey in data ==> r.value.russianModel == data[RussianModelKey])
      && (RussianModelKey !in data ==> r.value.russianModel == DefaultRussianModel)
      && (EnglishModelKey in data ==> r.value.englishModel == data[EnglishModelKey])
      && (EnglishModelKey !in data ==> r.value.englishModel == DefaultEnglishModel)
    ensures r.Failure? ==> r.error == ValueError("Unknown command type: " + TypeText(data))
  {
    if TypeKey in data && data[TypeKey] == TranscribeType then
      Success(TranscribeCommand(
        TranscribeType,
        Get(data, AudioPathKey, DefaultAudioPath),
        Get(data, LanguageKey, DefaultLanguage),
        Get(data, RussianModelKey, DefaultRussianModel),
        Get(data, EnglishModelKey, DefaultEnglishModel)))
    else
      Failure(ValueError("Unknown command type: " + TypeText(data)))
  }

  /** The command as `asdict` would write it out. The engine never writes a
      command out; this is the inverse that `ParseCommandFields` pairs
      `ParseCommand` with. */
  function CommandFields(cmd: TranscribeCommand): (data: map<string, string>)
    ensures data.Keys == {TypeKey, AudioPathKey, LanguageKey, RussianModelKey, EnglishModelKey}
  {
    map[TypeKey := cmd.commandType,
        AudioPathKey := cmd.audioPath,
        LanguageKey := cmd.language,
        RussianModelKey := cmd.russianModel,
        EnglishModelKey := cmd.englishModel]
  }

  /** Writing a transcribe command out and parsing it back gives it again. */
  lemma ParseCommandFields(cmd: TranscribeCommand)
    requires cmd.commandType == TranscribeType
    ensures ParseCommand(CommandFields(cmd)) == Success(cmd)
  {
    var data := CommandFields(cmd);
    assert data[TypeKey] == TranscribeType;
    assert data[AudioPathKey] == cmd.audioPath;
    assert data[LanguageKey] == cmd.language;
    assert data[RussianModelKey] == cmd.russianModel;
    assert data[EnglishModelKey] == cmd.englishModel;
  }

  /** Parsing looks at the five command keys only: two objects that agree
      on them parse alike, whatever else they hold. */
  lemma ParseCommandIgnoresOtherKeys(data: map<string, string>, other: map<string, string>)
    requires forall k :: k in {TypeKey, AudioPathKey, LanguageKey, RussianModelKey, EnglishModelKey} ==>
      (k in data <==> k in other) && (k in data ==> data[k] == other[k])
    ensures ParseCommand(data) == ParseCommand(other)
  {
    assert TypeKey in {TypeKey, AudioPathKey, LanguageKey, RussianModelKey, EnglishModelKey};
    assert AudioPathKey in {TypeKey, AudioPathKey, LanguageKey, RussianModelKey, EnglishModelKey};
    assert LanguageKey in {TypeKey, AudioPathKey, LanguageKey, RussianModelKey, EnglishModelKey};
    assert RussianModelKey in {TypeKey, AudioPathKey, LanguageKey, RussianModelKey, EnglishModelKey};
    assert EnglishModelKey in {TypeKey, AudioPathKey, LanguageKey, RussianModelKey, EnglishModelKey};
  }

  // ---------------------------------------------------------------------
  // Events (engine to app)
  // ---------------------------------------------------------------------

  datatype Event =
    | StatusEvent(state: string, message: string)
    | TranscribingEvent(message: string)
    | TranscriptCompleteEvent(segments: seq<Segment>, fullText: string)
    | ErrorEvent(message: string)
  {
    /** The fixed `type` tag each event kind carries. */
    function Type(): string {
      match this
      case StatusEvent(_, _) => "status"
      case TranscribingEvent(_) => "transcribing"
      case TranscriptCompleteEvent(_, _) => "transcript_complete"
      case ErrorEvent(_) => "error"
    }
  }

  /** A value in an event's dictionary. */
  datatype FieldValue = Text(text: string) | SegmentList(segments: seq<Segment>)

  /** `asdict(event)`: the constructor arguments under their names, plus
      the event's type tag under "type". */
  function EventFields(e: Event): (d: map<string, FieldValue>)
    ensures TypeKey in d && d[TypeKey] == Text(e.Type())
    ensures e.StatusEvent? ==>
      d.Keys == {"state", "message", TypeKey} && d["state"] == Text(e.state) && d["message"] == Text(e.message)
    ensures e.TranscribingEvent? || e.ErrorEvent? ==>
      d.Keys == {"message", TypeKey} && d["message"] == Text(e.message)
    ensures e.TranscriptCompleteEvent? ==>
      d.Keys == {"segments", "full_text", TypeKey}
      && d["segments"] == SegmentList(e.segments) && d["full_text"] == Text(e.fullText)
  {
    match e
    case StatusEvent(state, message) =>
      map["state" := Text(state), "message" := Text(message), TypeKey := Text("status")]
    case TranscribingEvent(message) =>
      map["message" := Text(message), TypeKey := Text("transcribing")]
    case TranscriptCompleteEvent(segments, fullText) =>
      map["segments" := SegmentList(segments), "full_text" := Text(fullText), TypeKey := Text("transcript_complete")]
    case ErrorEvent(message) =>
      map["message" := Text(message), TypeKey := Text("error")]
  }

  /** The four tags are distinct, so a reader can tell the event kind from
      the "type" field alone. */
  lemma TypeIdentifiesEvent(a: Event, b: Event)
    requires a.Type() == b.Type()
    ensures a.StatusEvent? == b.StatusEvent?
    ensures a.TranscribingEvent? == b.TranscribingEvent?
    ensures a.TranscriptCompleteEvent? == b.TranscriptCompleteEvent?
    ensures a.ErrorEvent? == b.ErrorEvent?
  {
    assert "status" != "transcribing" && "status" != "error" && "status" != "transcript_complete";
    assert "transcribing" != "error" && "transcribing" != "transcript_complete";
    assert "transcript_complete" != "error";
  }
}

=== FILE: segments.dfy ===
/** The records that flow from the recogniser to the client: what a model
    returns per utterance, and the segment dictionary the engine emits. */
module Segments {
  import opened Wrappers

  /** One channel of audio, as float samples. */
  type Samples = seq<real>

  /** A segment as the recognition library yields it; where the library
      object lacks `text`, `start` or `end`, the defaults the engine applies
      (`str(seg)`, 0.0, 0.0) are already filled in. */
  datatype RawSegment = RawSegment(text: string, start: real, end: real)

  /** The engine's segment dictionary `{"start", "end", "text", "language"}`,
      with the optional `"source"` key the transcriber adds per channel. */
  datatype Segment = Segment(
    start: real,
    end: real,
    text: string,
    language: string,
    source: Option<string>)
}

=== FILE: text.dfy ===
/** The pieces of Python's `str` that the engine relies on: the substring
    test `sub in s`, `str.isspace`, `str.strip` and the `<` order on strings. */
module Text {

  /** Python's `str.isspace()` for a single character (the Unicode
      whitespace characters, plus the four ASCII information separators). */
  predicate IsSpace(c: char) {
    || c == ' '
    || ('\U{9}' <= c <= '\U{D}')
    || ('\U{1C}' <= c <= '\U{1F}')
    || c == '\U{85}' || c == '\U{A0}' || c == '\U{1680}'
    || ('\U{2000}' <= c <= '\U{200A}')
    || c == '\U{2028}' || c == '\U{2029}' || c == '\U{202F}'
    || c == '\U{205F}' || c == '\U{3000}'
  }

  /** Every character of `s` is whitespace (the empty string included). */
  predicate IsBlank(s: string) {
    forall i :: 0 <= i < |s| ==> IsSpace(s[i])
  }

  /** `s` begins and ends with a non-whitespace character, or is empty. */
  predicate IsStripped(s: string) {
    s != [] ==> !IsSpace(s[0]) && !IsSpace(s[|s| - 1])
  }

  // ---------------------------------------------------------------------
  // Substring test
  // ---------------------------------------------------------------------

  predicate StartsWith(s: string, prefix: string) {
    |prefix| <= |s| && s[..|prefix|] == prefix
  }

  /** `sub` occurs in `s` starting at index `i`. */
  predicate OccursAt(s: string, sub: string, i: nat) {
    i + |sub| <= |s| && s[i..i + |sub|] == sub
  }

  /** Python's `sub in s`. */
  predicate Contains(s: string, sub: string)
    decreases |s|
  {
    StartsWith(s, sub) || (|s| > 0 && Contains(s[1..], sub))
  }

  /** `sub in s` holds exactly when `sub` occurs at some index of `s`. */
  lemma {:induction false} ContainsAt(s: string, sub: string)
    ensures Contains(s, sub) <==> exists i: nat :: OccursAt(s, sub, i)
    decreases |s|
  {
    if Contains(s, sub) {
      if StartsWith(s, sub) {
        assert OccursAt(s, sub, 0);
      } else {
        ContainsAt(s[1..], sub);
        var i: nat :| OccursAt(s[1..], sub, i);
        assert s[1..][i..i + |sub|] == s[i + 1..i + 1 + |sub|];
        assert OccursAt(s, sub, i + 1);
      }
    }
    if exists i: nat :: OccursAt(s, sub, i) {
      var i: nat :| OccursAt(s, sub, i);
      if i == 0 {
        assert StartsWith(s, sub);
      } else {
        assert s[1..][i - 1..i - 1 + |sub|] == s[i..i + |sub|];
        assert OccursAt(s[1..], sub, i - 1);
        ContainsAt(s[1..], sub);
      }
    }
  }

  /** A string contains whatever is spliced into it. */
  lemma ContainsInfix(a: string, sub: string, b: string)
    ensures Contains(a + sub + b, sub)
  {
    var s := a + sub + b;
    assert s[|a|..|a| + |sub|] == sub;
    assert OccursAt(s, sub, |a|);
    ContainsAt(s, sub);
  }

  /** Both pieces spliced into a string occur in it. */
  lemma ContainsBoth(a: string, x: string, b: string, y: string, c: string)
    ensures Contains(a + x + b + y + c, x) && Contains(a + x + b + y + c, y)
  {
    ContainsInfix(a, x, b + y + c);
    ContainsInfix(a + x + b, y, c);
    assert a + x + b + y + c == a + x + (b + y + c);
  }

  /** Whatever occurs in a string occurs in any extension of it. */
  lemma ContainsExtend(s: string, sub: string, more: string)
    requires Contains(s, sub)
    ensures Contains(s + more, sub)
  {
    ContainsAt(s, sub);
    var i: nat :| OccursAt(s, sub, i);
    assert (s + more)[i..i + |sub|] == s[i..i + |sub|];
    assert OccursAt(s + more, sub, i);
    ContainsAt(s + more, sub);
  }

  /** Nothing longer than `s` occurs in it. */
  lemma ContainsShorter(s: string, sub: string)
    ensures Contains(s, sub) ==> |sub| <= |s|
  {
    ContainsAt(s, sub);
  }

  // ---------------------------------------------------------------------
  // str.strip()
  // ---------------------------------------------------------------------

  /** `s.lstrip()`: the suffix left after dropping leading whitespace. */
  function TrimStart(s: string): (r: string)
    ensures |r| <= |s| && r == s[|s| - |r|..]
    ensures r != [] ==> !IsSpace(r[0])
  {
    if s != [] && IsSpace(s[0]) then TrimStart(s[1..]) else s
  }

  /** What `lstrip` drops is whitespace. */
  lemma {:induction false} TrimStartDropsBlank(s: string)
    ensures IsBlank(s[..|s| - |TrimStart(s)|])
  {
    if s != [] && IsSpace(s[0]) {
      var rest := s[1..];
      TrimStartDropsBlank(rest);
      var k := |rest| - |TrimStart(rest)|;
      forall i | 0 <= i < k + 1
        ensures IsSpace(s[i])
      {
        if i > 0 {
          assert s[i] == rest[..k][i - 1];
        }
      }
    }
  }

  /** `s.rstrip()`: the prefix left after dropping trailing whitespace. */
  function TrimEnd(s: string): (r: string)
    ensures |r| <= |s| && r == s[..|r|]
    ensures r != [] ==> !IsSpace(r[|r| - 1])
  {
    if s != [] && IsSpace(s[|s| - 1]) then TrimEnd(s[..|s| - 1]) else s
  }

  /** What `rstrip` drops is whitespace. */
  lemma {:induction false} TrimEndDropsBlank(s: string)
    ensures IsBlank(s[|TrimEnd(s)|..])
  {
    if s != [] && IsSpace(s[|s| - 1]) {
      var t := s[..|s| - 1];
      TrimEndDropsBlank(t);
      assert s[|TrimEnd(s)|..] == t[|TrimEnd(t)|..] + [s[|s| - 1]];
    }
  }

  /** `s` is `r` with the blank run `s[..k]` in front and a blank run behind. */
  predicate StripsTo(s: string, r: string, k: nat) {
    && OccursAt(s, r, k)
    && IsBlank(s[..k])
    && IsBlank(s[k + |r|..])
  }

  /** Python's `s.strip()`: drops leading and trailing whitespace. */
  function Strip(s: string): (r: string)
    ensures |r| <= |s|
    ensures IsStripped(r)
  {
    TrimEnd(TrimStart(s))
  }

  /** Stripping leaves nothing exactly when the string is blank. */
  lemma StripEmpty(s: string)
    ensures Strip(s) == [] <==> IsBlank(s)
  {
    var front := TrimStart(s);
    var r := TrimEnd(front);
    TrimStartDropsBlank(s);
    TrimEndDropsBlank(front);
    assert r == [] ==> s == s[..|s| - |front|] + front[|r|..];
  }

  /** What `Strip` removes is whitespace, and only from the two ends: the
      result is the infix of `s` between a blank prefix and a blank suffix. */
  lemma StripInfix(s: string)
    ensures exists k: nat :: StripsTo(s, Strip(s), k)
  {
    var front := TrimStart(s);
    var r := TrimEnd(front);
    var k := |s| - |front|;
    TrimStartDropsBlank(s);
    TrimEndDropsBlank(front);
    assert r == Strip(s);
    assert s[k..k + |r|] == r;
    assert s[k + |r|..] == front[|r|..];
    assert StripsTo(s, Strip(s), k);
  }

  /** Stripping twice is stripping once. */
  lemma StripIdempotent(s: string)
    ensures Strip(Strip(s)) == Strip(s)
  {
    var r := Strip(s);
    assert IsStripped(r);
    assert TrimStart(r) == r;
    assert TrimEnd(r) == r;
  }

  // ---------------------------------------------------------------------
  // Python's `<` on str: lexicographic by code point
  // ---------------------------------------------------------------------

  predicate StringLess(a: string, b: string) {
    if b == [] then false
    else if a == [] then true
    else if a[0] != b[0] then a[0] < b[0]
    else StringLess(a[1..], b[1..])
  }

  lemma {:induction false} StringLessIrreflexive(a: string)
    ensures !StringLess(a, a)
  {
    if a != [] {
      StringLessIrreflexive(a[1..]);
    }
  }

  lemma {:induction false} StringLessTransitive(a: string, b: string, c: string)
    requires StringLess(a, b) && StringLess(b, c)
    ensures StringLess(a, c)
  {
    if a != [] && a[0] == b[0] && b[0] == c[0] {
      StringLessTransitive(a[1..], b[1..], c[1..]);
    }
  }

  lemma {:induction false} StringLessTotal(a: string, b: string)
    ensures a == b || StringLess(a, b) || StringLess(b, a)
  {
    if a != [] && b != [] && a[0] == b[0] {
      StringLessTotal(a[1..], b[1..]);
      if a[1..] == b[1..] {
        assert a == [a[0]] + a[1..] && b == [b[0]] + b[1..];
      }
    }
  }
}

=== FILE: transcriber.dfy ===
/** `transcribe`: a sound file's samples, resampled to 16 kHz, recognised
    channel by channel with one engine, and merged into a single list of
    segments ordered by time, together with their texts joined by spaces. */
module Transcriber {
  import opened Wrappers
  import opened Text
  import opened Segments
  import opened AsrEngine

  /** The sources of the first and the second channel of a stereo file. */
  const MicSource := "mic/speak"
  const SpeakerSource := "speaker/speak"

  /** The rate every model is fed. */
  const TargetRate := 16000

  /** What the sound file reader returns: one channel, or a frames-by-channels
      array, given here by its columns. */
  datatype Audio = Mono(samples: Samples) | Columns(channels: seq<Samples>)

  /** numpy's linear interpolation of one channel recorded at the given rate
      onto a 16 kHz grid. */
  type Interpolator = (Samples, int) -> Samples

  /** What `transcribe` raises. */
  datatype TranscribeError =
    | Raised(error: Error)   // an error the engine raises
    | ZeroDivisionError      // `16000 / sample_rate` at a zero rate
    | NothingToStack         // `np.stack` of no channels
    | NoFirstColumn          // `audio[:, 0]` of an array without columns

  /** The segments and the full text `transcribe` returns. */
  datatype Transcript = Transcript(segments: seq<Segment>, fullText: string)

  // ---------------------------------------------------------------------
  // _resample_to_16k
  // ---------------------------------------------------------------------

  /** `_resample_to_16k`: audio already at 16 kHz is returned as it is; any
      other audio is interpolated channel by channel. */
  function Resample(audio: Audio, sampleRate: int, interpolate: Interpolator)
    : (r: Result<(Audio, int), TranscribeError>)
    ensures sampleRate == TargetRate ==> r == Success((audio, sampleRate))
    ensures r.Success? ==> r.value.1 == TargetRate && r.value.0.Mono? == audio.Mono?
    ensures r.Success? && audio.Columns? ==> |r.value.0.channels| == |audio.channels|
    ensures r.Failure? <==> sampleRate != TargetRate && (sampleRate == 0 || audio == Columns([]))
  {
    if sampleRate == TargetRate then Success((audio, sampleRate))
    else if sampleRate == 0 then Failure(ZeroDivisionError)
    else
      match audio
      case Mono(samples) => Success((Mono(interpolate(samples, sampleRate)), TargetRate))
      case Columns(channels) =>
        if channels == [] then Failure(NothingToStack)
        else Success((Columns(Interpolated(channels, sampleRate, interpolate)), TargetRate))
  }

  /** Every channel interpolated on its own. */
  function Interpolated(channels: seq<Samples>, sampleRate: int, interpolate: Interpolator): (r: seq<Samples>)
    ensures |r| == |channels|
    ensures forall i :: 0 <= i < |channels| ==> r[i] == interpolate(channels[i], sampleRate)
  {
    seq(|channels|, i requires 0 <= i < |channels| => interpolate(channels[i], sampleRate))
  }

  // ---------------------------------------------------------------------
  // _with_source
  // ---------------------------------------------------------------------

  /** The segments copied with their "source" set to `source`. */
  function Tagged(segments: seq<Segment>, source: string): (tagged: seq<Segment>)
    ensures |tagged| == |segments|
    ensures forall i :: 0 <= i < |segments| ==>
      tagged[i].source == Some(source) && tagged[i].(source := segments[i].source) == segments[i]
  {
    seq(|segments|, i requires 0 <= i < |segments| => segments[i].(source := Some(source)))
  }

  /** `_with_source`: a copy of every segment with its "source" key set. */
  method WithSource(segments: seq<Segment>, source: string) returns (tagged: seq<Segment>)
    ensures tagged == Tagged(segments, source)
  {
    tagged := [];
    for i := 0 to |segments|
      invariant |tagged| == i
      invariant forall j :: 0 <= j < i ==> tagged[j] == segments[j].(source := Some(source))
    {
      tagged := tagged + [segments[i].(source := Some(source))];
    }
  }

  // ---------------------------------------------------------------------
  // sorted(..., key=lambda seg: (start, end, source))
  // ---------------------------------------------------------------------

  /** The sort key `(seg.get("start", 0.0), seg.get("end", 0.0),
      seg.get("source", ""))`. */
  datatype SortKey = SortKey(start: real, end: real, source: string)

  function KeyOf(s: Segment): SortKey {
    SortKey(s.start, s.end, s.source.GetOr(""))
  }

  /** Python's `<` on the key tuples: lexicographic, component by component. */
  predicate KeyLess(a: SortKey, b: SortKey) {
    || a.start < b.start
    || (a.start == b.start && a.end < b.end)
    || (a.start == b.start && a.end == b.end && StringLess(a.source, b.source))
  }

  lemma KeyLessIrreflexive(a: SortKey)
    ensures !KeyLess(a, a)
  {
    StringLessIrreflexive(a.source);
  }

  lemma KeyLessTransitive(a: SortKey, b: SortKey, c: SortKey)
    requires KeyLess(a, b) && KeyLess(b, c)
    ensures KeyLess(a, c)
  {
    if a.start == b.start == c.start && a.end == b.end == c.end {
      StringLessTransitive(a.source, b.source, c.source);
    }
  }

  lemma KeyLessTotal(a: SortKey, b: SortKey)
    ensures a == b || KeyLess(a, b) || KeyLess(b, a)
  {
    StringLessTotal(a.source, b.source);
  }

  /** No segment's key is below the key of one before it. */
  predicate Sorted(s: seq<Segment>) {
    forall i, j :: 0 <= i < j < |s| ==> !KeyLess(KeyOf(s[j]), KeyOf(s[i]))
  }

  /** Where a stable insertion puts `x`: after every segment whose key is
      not above its key, before the run of segments whose keys are. */
  function InsertionPoint(sorted: seq<Segment>, x: Segment): (m: nat)
    ensures m <= |sorted|
    ensures forall j :: m <= j < |sorted| ==> KeyLess(KeyOf(x), KeyOf(sorted[j]))
    ensures 0 < m ==> !KeyLess(KeyOf(x), KeyOf(sorted[m - 1]))
  {
    if sorted == [] || !KeyLess(KeyOf(x), KeyOf(sorted[|sorted| - 1])) then |sorted|
    else InsertionPoint(sorted[..|sorted| - 1], x)
  }

  function Insert(sorted: seq<Segment>, x: Segment): seq<Segment> {
    var m := InsertionPoint(sorted, x);
    sorted[..m] + [x] + sorted[m..]
  }

  /** Python's `sorted` by the key above. A stable sort by a total order
      has exactly one result, so the result is given by insertion sort. */
  function SortSegments(s: seq<Segment>): seq<Segment> {
    if s == [] then [] else Insert(SortSegments(s[..|s| - 1]), s[|s| - 1])
  }

  /** Inserting into a sorted list keeps it sorted. */
  lemma InsertSorted(sorted: seq<Segment>, x: Segment)
    requires Sorted(sorted)
    ensures Sorted(Insert(sorted, x))
  {
    var m := InsertionPoint(sorted, x);
    var r := Insert(sorted, x);
    assert forall i :: 0 <= i < m ==> r[i] == sorted[i];
    assert r[m] == x;
    assert forall i :: m < i < |r| ==> r[i] == sorted[i - 1];
    forall i, j | 0 <= i < j < |r|
      ensures !KeyLess(KeyOf(r[j]), KeyOf(r[i]))
    {
      if j == m {
        // r[i] == sorted[i] is not above sorted[m - 1], which is not above x.
        if KeyLess(KeyOf(x), KeyOf(sorted[i])) {
          KeyLessTotal(KeyOf(sorted[i]), KeyOf(sorted[m - 1]));
          if KeyOf(sorted[i]) != KeyOf(sorted[m - 1]) {
            KeyLessTransitive(KeyOf(x), KeyOf(sorted[i]), KeyOf(sorted[m - 1]));
          }
        }
      } else if i == m {
        if KeyLess(KeyOf(r[j]), KeyOf(x)) {
          KeyLessTransitive(KeyOf(x), KeyOf(r[j]), KeyOf(x));
          KeyLessIrreflexive(KeyOf(x));
        }
      }
    }
  }

  /** Insertion adds `x` and nothing else. */
  lemma InsertPermutes(sorted: seq<Segment>, x: Segment)
    ensures multiset(Insert(sorted, x)) == multiset(sorted) + multiset{x}
  {
    var m := InsertionPoint(sorted, x);
    assert sorted == sorted[..m] + sorted[m..];
  }

  /** The sorted list is in key order. */
  lemma {:induction false} SortSorted(s: seq<Segment>)
    ensures Sorted(SortSegments(s))
  {
    if s != [] {
      SortSorted(s[..|s| - 1]);
      InsertSorted(SortSegments(s[..|s| - 1]), s[|s| - 1]);
    }
  }

  /** The sorted list holds the same segments, as often each. */
  lemma {:induction false} SortPermutes(s: seq<Segment>)
    ensures multiset(SortSegments(s)) == multiset(s)
  {
    if s != [] {
      SortPermutes(s[..|s| - 1]);
      InsertPermutes(SortSegments(s[..|s| - 1]), s[|s| - 1]);
      assert s == s[..|s| - 1] + [s[|s| - 1]];
    }
  }

  /** The segments whose key is `k`, in their order. */
  function WithKey(s: seq<Segment>, k: SortKey): seq<Segment> {
    if s == [] then []
    else WithKey(s[..|s| - 1], k) + (if KeyOf(s[|s| - 1]) == k then [s[|s| - 1]] else [])
  }

  lemma {:induction false} WithKeyAppend(a: seq<Segment>, b: seq<Segment>, k: SortKey)
    ensures WithKey(a + b, k) == WithKey(a, k) + WithKey(b, k)
  {
    if b == [] {
      assert a + b == a;
    } else {
      assert (a + b)[..|a + b| - 1] == a + b[..|b| - 1];
      WithKeyAppend(a, b[..|b| - 1], k);
    }
  }

  lemma {:induction false} WithKeyNone(s: seq<Segment>, k: SortKey)
    requires forall i :: 0 <= i < |s| ==> KeyOf(s[i]) != k
    ensures WithKey(s, k) == []
  {
    if s != [] {
      WithKeyNone(s[..|s| - 1], k);
    }
  }

  lemma WithKeyOne(x: Segment, k: SortKey)
    ensures WithKey([x], k) == if KeyOf(x) == k then [x] else []
  {
    assert [x][..0] == [];
  }

  /** Insertion puts `x` behind every segment with the same key. */
  lemma InsertStable(sorted: seq<Segment>, x: Segment, k: SortKey)
    ensures WithKey(Insert(sorted, x), k) == WithKey(sorted, k) + WithKey([x], k)
  {
    var m := InsertionPoint(sorted, x);
    var front, back := sorted[..m], sorted[m..];
    assert sorted == front + back;
    assert Insert(sorted, x) == (front + [x]) + back;
    WithKeyOne(x, k);
    WithKeyAppend(front + [x], back, k);
    WithKeyAppend(front, [x], k);
    WithKeyAppend(front, back, k);
    if KeyOf(x) == k {
      AboveInsertionPoint(sorted, x);
    }
  }

  /** No segment behind the insertion point has the inserted key. */
  lemma AboveInsertionPoint(sorted: seq<Segment>, x: Segment)
    ensures WithKey(sorted[InsertionPoint(sorted, x)..], KeyOf(x)) == []
  {
    var m := InsertionPoint(sorted, x);
    var back := sorted[m..];
    forall i | 0 <= i < |back|
      ensures KeyOf(back[i]) != KeyOf(x)
    {
      assert KeyLess(KeyOf(x), KeyOf(sorted[m + i]));
      KeyLessIrreflexive(KeyOf(x));
    }
    WithKeyNone(back, KeyOf(x));
  }

  /** The sort is stable: segments with equal keys keep their order. */
  lemma {:induction false} SortStable(s: seq<Segment>, k: SortKey)
    ensures WithKey(SortSegments(s), k) == WithKey(s, k)
  {
    if s != [] {
      var init, last := s[..|s| - 1], s[|s| - 1];
      SortStable(init, k);
      InsertStable(SortSegments(init), last, k);
      assert [last][..0] == [];
    }
  }

  /** On equal times the microphone's segment comes before the speaker's. */
  lemma MicBeforeSpeaker(s: seq<Segment>, i: nat, j: nat)
    requires Sorted(s) && i < j < |s|
    requires s[i].start == s[j].start && s[i].end == s[j].end
    requires s[i].source.Some? && s[j].source.Some?
    requires {s[i].source.value, s[j].source.value} == {MicSource, SpeakerSource}
    ensures s[i].source == Some(MicSource) && s[j].source == Some(SpeakerSource)
  {
    assert MicSource[0] < SpeakerSource[0];
    assert StringLess(MicSource, SpeakerSource);
    assert !KeyLess(KeyOf(s[j]), KeyOf(s[i]));
  }

  // ---------------------------------------------------------------------
  // " ".join(seg["text"] for seg in segments)
  // ---------------------------------------------------------------------

  function JoinTexts(segments: seq<Segment>): string {
    if segments == [] then ""
    else if |segments| == 1 then segments[0].text
    else JoinTexts(segments[..|segments| - 1]) + " " + segments[|segments| - 1].text
  }

  /** Joining two non-empty lists puts one space between their joins. */
  lemma {:induction false} JoinAppend(a: seq<Segment>, b: seq<Segment>)
    requires a != [] && b != []
    ensures JoinTexts(a + b) == JoinTexts(a) + " " + JoinTexts(b)
    decreases |b|
  {
    var ab := a + b;
    var rest, last := b[..|b| - 1], b[|b| - 1];
    assert ab[..|ab| - 1] == a + rest;
    assert JoinTexts(ab) == JoinTexts(a + rest) + " " + last.text;
    if rest != [] {
      JoinAppend(a, rest);
      assert JoinTexts(b) == JoinTexts(rest) + " " + last.text;
    } else {
      assert a + rest == a;
    }
  }

  /** Every segment's text occurs in the full text. */
  lemma {:induction false} JoinContains(segments: seq<Segment>, i: nat)
    requires i < |segments|
    ensures Contains(JoinTexts(segments), segments[i].text)
    decreases |segments|
  {
    var n := |segments| - 1;
    var init := segments[..n];
    var pre := if n == 0 then "" else JoinTexts(init) + " ";
    assert JoinTexts(segments) == pre + segments[n].text;
    if i == n {
      ContainsInfix(pre, segments[n].text, "");
      assert pre + segments[n].text + "" == pre + segments[n].text;
    } else {
      JoinContains(init, i);
      assert init[i] == segments[i];
      ContainsExtend(JoinTexts(init), segments[i].text, " " + segments[n].text);
      assert pre + segments[n].text == JoinTexts(init) + (" " + segments[n].text);
    }
  }

  /** Every segment has a non-empty text with no whitespace at either end. */
  predicate Clean(segments: seq<Segment>) {
    forall s :: s in segments ==> s.text != [] && IsStripped(s.text)
  }

  /** Joining clean texts gives a text with no whitespace at either end,
      empty exactly when there are no segments. */
  lemma {:induction false} JoinClean(segments: seq<Segment>)
    requires Clean(segments)
    ensures IsStripped(JoinTexts(segments))
    ensures JoinTexts(segments) == [] <==> segments == []
  {
    if |segments| > 1 {
      var init := segments[..|segments| - 1];
      assert forall s :: s in init ==> s in segments;
      JoinClean(init);
      assert segments[|segments| - 1] in segments;
    } else if |segments| == 1 {
      assert segments[0] in segments;
    }
  }

  // ---------------------------------------------------------------------
  // transcribe
  // ---------------------------------------------------------------------

  /** `ASREngine(...)` followed by `initialize()`: a fresh engine, set to
      `language`, with its detector and the models that language needs; its
      order and dictionary are in step. */
  function Initialized(onnx: Onnx, names: ModelNames, language: string): (step: Step<Result<seq<string>, Error>>)
    ensures WellFormed(step.state) && step.state.language == language
  {
    var initial := EngineState(language, None, map[], [], {}, []);
    InitializeStepWellFormed(onnx, names, initial);
    InitializeStepEffects(onnx, names, initial);
    InitializeStep(onnx, names, initial)
  }

  /** `engine.recognize(audio, sample_rate)`: the engine's own language,
      detected when it is "auto"; the engine it leaves behind keeps its order
      and dictionary in step. */
  function Recognition(onnx: Onnx, names: ModelNames, st: EngineState, samples: Samples, sampleRate: int)
    : (step: Step<Result<seq<Segment>, Error>>)
    requires WellFormed(st)
    ensures WellFormed(step.state) && step.state.language == st.language
  {
    var lang := ResolvedLanguage(onnx, st, samples, sampleRate, None);
    RecognizeStepWellFormed(onnx, names, st, samples, sampleRate, lang);
    RecognizeStepEffects(onnx, names, st, samples, sampleRate, lang);
    RecognizeStep(onnx, names, st, samples, sampleRate, lang)
  }

  /** The one channel of a file read as mono or as a single column. */
  function OnlyChannel(audio: Audio): Samples
    requires audio.Mono? || |audio.channels| == 1
  {
    if audio.Mono? then audio.samples else audio.channels[0]
  }

  /** The result of a file recognised as one channel. */
  function OnePass(onnx: Onnx, names: ModelNames, st: EngineState, samples: Samples, sampleRate: int)
    : Result<Transcript, TranscribeError>
    requires WellFormed(st)
  {
    var pass := Recognition(onnx, names, st, samples, sampleRate);
    if pass.result.Failure? then Failure(Raised(pass.result.error))
    else Success(Transcript(pass.result.value, JoinTexts(pass.result.value)))
  }

  /** The result of a file whose first two channels are recognised in turn
      and merged. */
  function TwoPasses(onnx: Onnx, names: ModelNames, st: EngineState, mic: Samples, speaker: Samples, sampleRate: int)
    : Result<Transcript, TranscribeError>
    requires WellFormed(st)
  {
    var first := Recognition(onnx, names, st, mic, sampleRate);
    if first.result.Failure? then Failure(Raised(first.result.error))
    else
      var second := Recognition(onnx, names, first.state, speaker, sampleRate);
      if second.result.Failure? then Failure(Raised(second.result.error))
      else
        var segments := SortSegments(Tagged(first.result.value, MicSource) + Tagged(second.result.value, SpeakerSource));
        Success(Transcript(segments, JoinTexts(segments)))
  }

  /** What `transcribe` returns for audio read at `sampleRate`. */
  function TranscribeResult(
    onnx: Onnx, interpolate: Interpolator, audio: Audio, sampleRate: int,
    language: string, russianModel: string, englishModel: string)
    : Result<Transcript, TranscribeError>
  {
    match Resample(audio, sampleRate, interpolate)
    case Failure(e) => Failure(e)
    case Success((resampled, rate)) =>
      var names := ModelNames(russianModel, englishModel);
      var init := Initialized(onnx, names, language);
      if init.result.Failure? then Failure(Raised(init.result.error))
      else
        match resampled
        case Mono(samples) => OnePass(onnx, names, init.state, samples, rate)
        case Columns(channels) =>
          if |channels| == 1 then OnePass(onnx, names, init.state, channels[0], rate)
          else if channels == [] then Failure(NoFirstColumn)
          else TwoPasses(onnx, names, init.state, channels[0], channels[1], rate)
  }

  /** `transcribe`: resample, initialise a fresh engine, recognise the one
      channel, or the first two channels tagged with their sources and merged
      in key order, and join the texts. */
  method Transcribe(
    onnx: Onnx, interpolate: Interpolator, audio: Audio, sampleRate: int,
    language: string := AutoLanguage,
    russianModel: string := DefaultRussianModel,
    englishModel: string := DefaultEnglishModel)
    returns (r: Result<Transcript, TranscribeError>)
    ensures r == TranscribeResult(onnx, interpolate, audio, sampleRate, language, russianModel, englishModel)
  {
    var resampled := Resample(audio, sampleRate, interpolate);
    if resampled.Failure? {
      return Failure(resampled.error);
    }
    var (samples, rate) := resampled.value;
    var engine := new ASREngine(onnx, russianModel, englishModel, language);
    ghost var names := engine.Names();
    var loaded := engine.Initialize();
    if loaded.Failure? {
      return Failure(Raised(loaded.error));
    }
    ghost var ready := engine.State();
    var segments: seq<Segment>;
    if samples.Mono? || |samples.channels| == 1 {
      var channel := if samples.Mono? then samples.samples else samples.channels[0];
      var pass := RecognizeOnce(engine, channel, rate);
      assert Step(pass, engine.State()) == Recognition(onnx, names, ready, channel, rate);
      if pass.Failure? {
        return Failure(Raised(pass.error));
      }
      segments := pass.value;
    } else if samples.channels == [] {
      return Failure(NoFirstColumn);
    } else {
      var micPass := RecognizeOnce(engine, samples.channels[0], rate);
      if micPass.Failure? {
        return Failure(Raised(micPass.error));
      }
      var mic := WithSource(micPass.value, MicSource);
      ghost var heard := engine.State();
      var speakerPass := RecognizeOnce(engine, samples.channels[1], rate);
      assert Step(speakerPass, engine.State()) == Recognition(onnx, names, heard, samples.channels[1], rate);
      if speakerPass.Failure? {
        return Failure(Raised(speakerPass.error));
      }
      var speaker := WithSource(speakerPass.value, SpeakerSource);
      segments := SortSegments(mic + speaker);
    }
    r := Success(Transcript(segments, JoinTexts(segments)));
  }

  /** `engine.recognize(audio, sample_rate)` with the language left to the
      engine, as the step it takes on the engine's state. */
  method RecognizeOnce(engine: ASREngine, samples: Samples, sampleRate: int)
    returns (r: Result<seq<Segment>, Error>)
    requires engine.Valid()
    modifies engine
    ensures engine.Valid()
    ensures Step(r, engine.State()) == Recognition(engine.onnx, engine.Names(), old(engine.State()), samples, sampleRate)
  {
    ghost var before := engine.State();
    ghost var trials := Trials(engine.onnx, before.modelOrder, before.models, SampleWindow(samples, sampleRate), sampleRate);
    ghost var lang;
    r, lang := engine.Recognize(samples, sampleRate);
    if before.language == AutoLanguage {
      DetectedLanguageFits(trials);
    }
    assert lang == ResolvedLanguage(engine.onnx, before, samples, sampleRate, None);
  }

  // ---------------------------------------------------------------------
  // What transcribe promises
  // ---------------------------------------------------------------------

  /** A recognition pass returns clean segments without a source. */
  lemma RecognitionClean(onnx: Onnx, names: ModelNames, st: EngineState, samples: Samples, sampleRate: int)
    requires WellFormed(st)
    ensures var pass := Recognition(onnx, names, st, samples, sampleRate);
      pass.result.Success? ==> Clean(pass.result.value) && forall s :: s in pass.result.value ==> s.source == None
  {
    RecognizeStepEffects(onnx, names, st, samples, sampleRate, ResolvedLanguage(onnx, st, samples, sampleRate, None));
  }

  /** Tagging and sorting two clean lists gives a clean, sorted list that
      holds exactly the mic segments tagged "mic/speak" and the speaker
      segments tagged "speaker/speak", as often each, with segments of equal
      key in that order. */
  lemma MergeClean(mic: seq<Segment>, speaker: seq<Segment>)
    requires Clean(mic) && Clean(speaker)
    ensures var tagged := Tagged(mic, MicSource) + Tagged(speaker, SpeakerSource);
      var merged := SortSegments(tagged);
      && multiset(merged) == multiset(tagged)
      && (forall k :: WithKey(merged, k) == WithKey(tagged, k))
      && Clean(merged) && Sorted(merged)
      && forall s :: s in merged ==> s.source == Some(MicSource) || s.source == Some(SpeakerSource)
  {
    var tagged := Tagged(mic, MicSource) + Tagged(speaker, SpeakerSource);
    SortSorted(tagged);
    SortPermutes(tagged);
    forall k ensures WithKey(SortSegments(tagged), k) == WithKey(tagged, k) {
      SortStable(tagged, k);
    }
    forall s | s in SortSegments(tagged)
      ensures s in tagged
    {
      assert s in multiset(SortSegments(tagged));
    }
    forall s | s in tagged
      ensures s.text != [] && IsStripped(s.text)
      ensures s.source == Some(MicSource) || s.source == Some(SpeakerSource)
    {
      var i :| 0 <= i < |tagged| && tagged[i] == s;
      if i < |mic| {
        assert s.text == mic[i].text && mic[i] in mic;
      } else {
        assert s.text == speaker[i - |mic|].text && speaker[i - |mic|] in speaker;
      }
    }
  }

  /** The full text is the segments' texts joined by single spaces; it has no
      whitespace at either end, is empty exactly when there are no segments,
      and holds every segment's text; every segment's text is non-empty and
      stripped. */
  lemma TranscribeText(
    onnx: Onnx, interpolate: Interpolator, audio: Audio, sampleRate: int,
    language: string, russianModel: string, englishModel: string)
    ensures var r := TranscribeResult(onnx, interpolate, audio, sampleRate, language, russianModel, englishModel);
      r.Success? ==>
        && Clean(r.value.segments)
        && r.value.fullText == JoinTexts(r.value.segments)
        && IsStripped(r.value.fullText)
        && (r.value.fullText == [] <==> r.value.segments == [])
        && forall i :: 0 <= i < |r.value.segments| ==> Contains(r.value.fullText, r.value.segments[i].text)
  {
    var r := TranscribeResult(onnx, interpolate, audio, sampleRate, language, russianModel, englishModel);
    var resampled := Resample(audio, sampleRate, interpolate);
    if r.Success? {
      var (samples, rate) := resampled.value;
      var names := ModelNames(russianModel, englishModel);
      var st := Initialized(onnx, names, language).state;
      if samples.Mono? || |samples.channels| == 1 {
        RecognitionClean(onnx, names, st, OnlyChannel(samples), rate);
      } else {
        var first := Recognition(onnx, names, st, samples.channels[0], rate);
        RecognitionClean(onnx, names, st, samples.channels[0], rate);
        RecognitionClean(onnx, names, first.state, samples.channels[1], rate);
        MergeClean(first.result.value, Recognition(onnx, names, first.state, samples.channels[1], rate).result.value);
      }
      var segments := r.value.segments;
      JoinClean(segments);
      forall i | 0 <= i < |segments|
        ensures Contains(r.value.fullText, segments[i].text)
      {
        JoinContains(segments, i);
      }
    }
  }

  /** A file read as one channel, or as one column, yields exactly the
      segments of the one recognition pass over that channel, untagged, on
      the freshly initialised engine; an error of the initialisation or of
      that pass is raised as it is. */
  lemma TranscribeOneChannel(
    onnx: Onnx, interpolate: Interpolator, audio: Audio, sampleRate: int,
    language: string, russianModel: string, englishModel: string)
    requires audio.Mono? || |audio.channels| == 1
    ensures var r := TranscribeResult(onnx, interpolate, audio, sampleRate, language, russianModel, englishModel);
      var resampled := Resample(audio, sampleRate, interpolate);
      var names := ModelNames(russianModel, englishModel);
      var ready := Initialized(onnx, names, language);
      && (resampled.Success? && ready.result.Failure? ==> r == Failure(Raised(ready.result.error)))
      && (resampled.Success? && ready.result.Success? ==>
          var pass := Recognition(onnx, names, ready.state, OnlyChannel(resampled.value.0), resampled.value.1);
          && (r.Success? <==> pass.result.Success?)
          && (r.Success? ==>
              && r.value.segments == pass.result.value
              && forall s :: s in r.value.segments ==> s.source == None)
          && (r.Failure? ==> r.error == Raised(pass.result.error)))
  {
    var resampled := Resample(audio, sampleRate, interpolate);
    if resampled.Success? {
      var (samples, rate) := resampled.value;
      var names := ModelNames(russianModel, englishModel);
      RecognitionClean(onnx, names, Initialized(onnx, names, language).state, OnlyChannel(samples), rate);
    }
  }

  /** A file with two or more columns yields exactly channel 0's segments
      tagged "mic/speak" and channel 1's segments tagged "speaker/speak", the
      second pass running on the engine the first one left, merged in order
      of start, end and source with ties kept in that order; an error of the
      initialisation or of either pass is raised as it is, and the second
      channel is not recognised when the first one fails. */
  lemma TranscribeTwoChannels(
    onnx: Onnx, interpolate: Interpolator, audio: Audio, sampleRate: int,
    language: string, russianModel: string, englishModel: string)
    requires audio.Columns? && |audio.channels| >= 2
    ensures var r := TranscribeResult(onnx, interpolate, audio, sampleRate, language, russianModel, englishModel);
      var resampled := Resample(audio, sampleRate, interpolate);
      var names := ModelNames(russianModel, englishModel);
      var ready := Initialized(onnx, names, language);
      && (resampled.Success? && ready.result.Failure? ==> r == Failure(Raised(ready.result.error)))
      && (resampled.Success? && ready.result.Success? ==>
          var (samples, rate) := resampled.value;
          var mic := Recognition(onnx, names, ready.state, samples.channels[0], rate);
          var speaker := Recognition(onnx, names, mic.state, samples.channels[1], rate);
          && (r.Success? <==> mic.result.Success? && speaker.result.Success?)
          && (mic.result.Failure? ==> r == Failure(Raised(mic.result.error)))
          && (mic.result.Success? && speaker.result.Failure? ==> r == Failure(Raised(speaker.result.error)))
          && (r.Success? && mic.result.Success? && speaker.result.Success? ==>
              var tagged := Tagged(mic.result.value, MicSource) + Tagged(speaker.result.value, SpeakerSource);
              && multiset(r.value.segments) == multiset(tagged)
              && (forall k :: WithKey(r.value.segments, k) == WithKey(tagged, k))
              && Sorted(r.value.segments)
              && forall s :: s in r.value.segments ==> s.source == Some(MicSource) || s.source == Some(SpeakerSource)))
  {
    var resampled := Resample(audio, sampleRate, interpolate);
    var names := ModelNames(russianModel, englishModel);
    var ready := Initialized(onnx, names, language);
    if resampled.Success? && ready.result.Success? {
      var (samples, rate) := resampled.value;
      var mic := Recognition(onnx, names, ready.state, samples.channels[0], rate);
      var speaker := Recognition(onnx, names, mic.state, samples.channels[1], rate);
      if mic.result.Success? && speaker.result.Success? {
        RecognitionClean(onnx, names, ready.state, samples.channels[0], rate);
        RecognitionClean(onnx, names, mic.state, samples.channels[1], rate);
        MergeClean(mic.result.value, speaker.result.value);
      }
    }
  }

  /** Channels beyond the second are ignored. */
  lemma TranscribeFirstTwoChannels(
    onnx: Onnx, interpolate: Interpolator, channels: seq<Samples>, sampleRate: int,
    language: string, russianModel: string, englishModel: string)
    requires |channels| >= 2
    ensures TranscribeResult(onnx, interpolate, Columns(channels), sampleRate, language, russianModel, englishModel)
         == TranscribeResult(onnx, interpolate, Columns(channels[..2]), sampleRate, language, russianModel, englishModel)
  {
  }

  /** A single column is transcribed as mono audio. */
  lemma TranscribeOneColumn(
    onnx: Onnx, interpolate: Interpolator, channel: Samples, sampleRate: int,
    language: string, russianModel: string, englishModel: string)
    ensures TranscribeResult(onnx, interpolate, Columns([channel]), sampleRate, language, russianModel, englishModel)
         == TranscribeResult(onnx, interpolate, Mono(channel), sampleRate, language, russianModel, englishModel)
  {
  }
}

=== FILE: wrappers.dfy ===
/** Option, Result and Outcome: the error-carrying values that stand for
    Python's None and for raised exceptions throughout the model. */
module Wrappers {

  datatype Option<+T> = None | Some(value: T) {
    /** `value if value is not None else default`. */
    function GetOr(default: T): T {
      match this
      case Some(v) => v
      case None => default
    }
  }

  /** A value, or the exception that was raised instead. */
  datatype Result<+T, +E> = Success(value: T) | Failure(error: E)

  /** The outcome of a procedure that returns None or raises. */
  datatype Outcome<+E> = Pass | Fail(error: E)
}
